=== FILE: README.md ===
# Crowd Management System — verified model of the page logic and the upload handler

This project is a Dafny model of the parts of the crowd-management system that hold rules rather than rendering:

- **Feedback statistics** (`calculateStats`). The feedback of an event is reduced to:
  - an overall mean and a total;
  - a per-category `{avg, count}` map with absent categories left out;
  - a zero-filled 1..5 rating histogram.
- **Event-scoped record pages** for lost persons, emergency exits and medical facilities. Each page does three things against a row store:
  - fetches the selected event's rows, newest first;
  - inserts new rows tagged with the selected event;
  - rewrites single fields of the row with a given id.

  The store is an in-memory sequence of rows.
- **The create-event dialog.** JavaScript `parseInt` on the capacity field, the form-to-payload mapping, and the loading/error state.
- **The authentication context.** Login with the fixed credential pair, logout, and restoring the session from key/value storage. This also covers the application shell's choice between the loading screen, the dashboard and the login screen.
- **The `POST /inference/count` handler.** `_parse_bool`, the request-validation status codes, the backend fallback chain with the clamped heuristic estimate, and the keys of the response.

Modules follow the source files:
- `Types` covers `types/index.ts`.
- `Store` is the row-store interface the pages rely on.
- `FeedbackPage`, `LostPersonsPage`, `EmergencyExitsPage`, `MedicalPage`, `EventsPage`, `AuthContext` and `Inference` each model one source file.
- `Wrappers` holds `Option`, `Result` and JavaScript string truthiness.

Environment inputs are ordinary parameters:
- `storeUp` is false when a select returns no data.
- `Store.WriteOutcome` is the store's answer to an insert: the assigned id and time, or an error.
- `writeOk` says whether an update was applied.
- `now` is the client clock.
- `parseFloat` is Python's `float()`.
- `saveOk` is the outcome of the density-record insert.
- `densityOk` says whether the area and density arithmetic finished without raising.
- `stamp` is the `last_updated` value the store's column default gives a new emergency exit.
- `Backends` holds what each counting backend produced.

Timestamps are opaque integers ordered like the ISO strings they stand for.

## Model

| member | source | states |
|---|---|---|
| Types.ParseCategory | cms_web_frontend/src/types/index.ts:71 | a category string parses exactly when it is one of the five names, and back to that name |
| Types.ParseExitStatus | cms_web_frontend/src/types/index.ts:62 | an exit status is exactly crowded, moderate or clear |
| Types.ParseLostStatus | cms_web_frontend/src/types/index.ts:43 | a lost-person status is exactly missing or found |
| Types.ParseFacilityType | cms_web_frontend/src/types/index.ts:51 | a facility type is exactly hospital, clinic or first-aid |
| Types.ParseAvailability | cms_web_frontend/src/types/index.ts:83 | washroom availability is exactly available, occupied or maintenance |
| Types.ParseDensityStatus | cms_web_frontend/src/types/index.ts:25 | zone density status is exactly crowded, moderate or low |
| Types.ParseWashroomGender | cms_web_frontend/src/types/index.ts:80 | washroom gender is exactly male, female or unisex |
| Types.EventScope | cms_web_frontend/src/types/index.ts:1-87 | every record kind except Organizer and Event is scoped, and its scope is the record's own event_id |
| Wrappers.OrUndefined | cms_web_frontend/src/components/pages/EventsPage.tsx:38 | `s \|\| undefined` drops exactly the empty string and keeps any other string unchanged |
| Store.Where | cms_web_frontend/src/components/pages/FeedbackPage.tsx:29-32 | the filtered rows are exactly the rows satisfying the predicate |
| Store.WhereMultiset | cms_web_frontend/src/components/pages/FeedbackPage.tsx:53 | filtering keeps every copy of a matching row and no copy of any other |
| Store.WherePermutation | cms_web_frontend/src/components/pages/FeedbackPage.tsx:53 | filtering two orderings of one table gives two orderings of one result |
| Store.WhereNonEmpty | cms_web_frontend/src/components/pages/FeedbackPage.tsx:53-54 | a filter result is nonempty exactly when some row satisfies the predicate |
| Store.WhereAll | cms_web_frontend/src/components/pages/LostPersonsPage.tsx:20-24 | a predicate every row satisfies returns the whole table |
| Store.WhereSplit | cms_web_frontend/src/components/pages/LostPersonsPage.tsx:32-33 | two complementary filters split the row count between them |
| Store.InsertNewestFirst | cms_web_frontend/src/components/pages/FeedbackPage.tsx:33 | inserting into a newest-first list keeps it newest first and adds exactly the one row |
| Store.SortNewestFirst | cms_web_frontend/src/components/pages/FeedbackPage.tsx:33 | the ordering is newest first and a permutation of its input |
| Store.Select | cms_web_frontend/src/components/pages/FeedbackPage.tsx:29-33 | a query returns exactly the matching rows, each as often as stored, newest first |
| Store.UpdateWhere | cms_web_frontend/src/components/pages/LostPersonsPage.tsx:39-42 | an update changes exactly the rows its filter selects and keeps the others in place |
| FeedbackPage.CategoryEntry | cms_web_frontend/src/components/pages/FeedbackPage.tsx:53-58 | a category has an entry exactly when some feedback carries it; its count is the category's multiplicity, and avg times count is the sum of those ratings |
| FeedbackPage.Breakdown | cms_web_frontend/src/components/pages/FeedbackPage.tsx:49-60 | the breakdown has a key exactly for each category that occurs, with that category's entry |
| FeedbackPage.Tally | cms_web_frontend/src/components/pages/FeedbackPage.tsx:62-67 | the histogram has exactly the keys 1..5, and each bucket counts the entries with that rating |
| FeedbackPage.CalculateStats | cms_web_frontend/src/components/pages/FeedbackPage.tsx:41-75 | no stats for an empty list; otherwise total is the length, avg times total is the rating sum, and the breakdown and histogram are as above |
| FeedbackPage.CategoryCount | cms_web_frontend/src/components/pages/FeedbackPage.tsx:53-57 | a category's filtered list is as long as the category's multiplicity in the list |
| FeedbackPage.RatingCount | cms_web_frontend/src/components/pages/FeedbackPage.tsx:65-67 | the entries with rating k are as many as the occurrences of k among the ratings |
| FeedbackPage.RatingSumBounds | cms_web_frontend/src/components/pages/FeedbackPage.tsx:47 | with ratings in 1..5 the sum lies between the count and five times the count |
| FeedbackPage.RatingSumPermutation | cms_web_frontend/src/components/pages/FeedbackPage.tsx:47 | the rating sum does not depend on the order of the entries |
| FeedbackPage.HistogramAccountsForAll | cms_web_frontend/src/components/pages/FeedbackPage.tsx:62-71 | the five buckets add up to the total |
| FeedbackPage.MeansWithinScale | cms_web_frontend/src/components/pages/FeedbackPage.tsx:47-56 | the overall mean and every category mean lie in [1, 5] |
| FeedbackPage.StatsOrderIndependent | cms_web_frontend/src/components/pages/FeedbackPage.tsx:47-67 | any permutation of the feedback gives identical stats |
| FeedbackPage.LoadFeedback | cms_web_frontend/src/components/pages/FeedbackPage.tsx:28-39 | after a load the list holds exactly the event's feedback, each row as often as stored, newest first, with stats recomputed; no data changes nothing |
| FeedbackPage.SelectEvent | cms_web_frontend/src/components/pages/FeedbackPage.tsx:22-26 | the empty selection and an unchanged selection load nothing; a changed one lists the event's rows, each as often as stored, newest first, with their stats, or keeps the previous list and stats when no data comes back |
| LostPersonsPage.CountStats | cms_web_frontend/src/components/pages/LostPersonsPage.tsx:30-34 | total is the row count; missing and found count their status, add up to total, and are nonzero exactly when such a row exists |
| LostPersonsPage.LoadLostPersons | cms_web_frontend/src/components/pages/LostPersonsPage.tsx:19-36 | the list holds the rows the filter selects (every row for "all"), each as often as stored, newest first, with consistent counters; no data keeps list and counters |
| LostPersonsPage.Mount | cms_web_frontend/src/components/pages/LostPersonsPage.tsx:11-17 | the first load uses the "all" filter and returns the whole table |
| LostPersonsPage.SelectEvent | cms_web_frontend/src/components/pages/LostPersonsPage.tsx:15-17 | only a changed selection reloads; it then lists the rows of the new filter (every row for "all"), each as often as stored, newest first, with counters that count them |
| LostPersonsPage.SetStatus | cms_web_frontend/src/components/pages/LostPersonsPage.tsx:39-42 | only the status field of rows with the id changes, and all other rows stay the same |
| LostPersonsPage.UpdateStatus | cms_web_frontend/src/components/pages/LostPersonsPage.tsx:38-45 | the update is applied when accepted, and the list is reloaded either way |
| LostPersonsPage.OfferedStatus | cms_web_frontend/src/components/pages/LostPersonsPage.tsx:158-165 | a card offers an action exactly when the report is missing, and the action is "found" |
| LostPersonsPage.PressCardButton | cms_web_frontend/src/components/pages/LostPersonsPage.tsx:158-165 | only missing reports have a button, and pressing it is the status update of that report's id to found, with its reload |
| LostPersonsPage.FoundIsFinal | cms_web_frontend/src/components/pages/LostPersonsPage.tsx:158-165 | pressing any offered button never turns a found report back to missing, and marks the pressed report found |
| LostPersonsPage.UpdateKeepsCountersConsistent | cms_web_frontend/src/components/pages/LostPersonsPage.tsx:30-44 | after an update and reload, missing plus found equals total |
| EmergencyExitsPage.LoadExits | Frontend_Event_Manager/src/components/pages/EmergencyExitsPage.tsx:26-36 | the list becomes the event's exits, each as often as stored, newest first; nothing else changes; no data changes nothing |
| EmergencyExitsPage.SelectEvent | Frontend_Event_Manager/src/components/pages/EmergencyExitsPage.tsx:20-24 | no fetch for the empty or unchanged selection; a changed one lists the event's exits, each as often as stored, newest first; no data keeps the previous list |
| EmergencyExitsPage.NewExit | Frontend_Event_Manager/src/components/pages/EmergencyExitsPage.tsx:43-46 | the inserted row carries the selected event and the form's name, location and status; `last_updated` is the store's default, since the insert does not send it |
| EmergencyExitsPage.HandleSubmit | Frontend_Event_Manager/src/components/pages/EmergencyExitsPage.tsx:38-57 | success appends exactly one row, resets the form to empty with status clear, closes the dialog, and the reload lists the event's exits including the new one, each as often as stored, newest first (no data keeps the list); failure changes nothing |
| EmergencyExitsPage.SetStatus | Frontend_Event_Manager/src/components/pages/EmergencyExitsPage.tsx:60-63 | rows with the id get the status and time; no other field or row changes |
| EmergencyExitsPage.UpdateExitStatus | Frontend_Event_Manager/src/components/pages/EmergencyExitsPage.tsx:59-66 | every update is followed by a reload of the selected event's exits |
| EmergencyExitsPage.UpdateIsListed | Frontend_Event_Manager/src/components/pages/EmergencyExitsPage.tsx:59-66 | after an accepted update and reload, the exit is listed with the new status and time |
| EmergencyExitsPage.GetStatusColor | Frontend_Event_Manager/src/components/pages/EmergencyExitsPage.tsx:68-79 | clear is green, moderate amber, crowded red, and gray exactly for strings that are not an exit status |
| EmergencyExitsPage.StatusColorsDistinct | Frontend_Event_Manager/src/components/pages/EmergencyExitsPage.tsx:68-79 | the three statuses get three different colours |
| MedicalPage.LoadFacilities | cms_web_frontend/src/components/pages/MedicalPage.tsx:27-37 | the list becomes the event's facilities, each as often as stored, newest first; no data changes nothing |
| MedicalPage.SelectEvent | cms_web_frontend/src/components/pages/MedicalPage.tsx:21-25 | no fetch for the empty or unchanged selection; a changed one lists the event's facilities, each as often as stored, newest first; no data keeps the previous list |
| MedicalPage.NewFacility | cms_web_frontend/src/components/pages/MedicalPage.tsx:44-47 | the inserted row carries the selected event and all four form fields unchanged |
| MedicalPage.HandleSubmit | cms_web_frontend/src/components/pages/MedicalPage.tsx:39-59 | success appends exactly one row, resets the form to empty strings with type hospital, and the reload lists the event's facilities including the new one, each as often as stored, newest first (no data keeps the list); failure changes nothing |
| MedicalPage.GetFacilityColor | cms_web_frontend/src/components/pages/MedicalPage.tsx:65-76 | hospital is red, clinic blue, first-aid green, and gray exactly for strings that are not a facility type |
| MedicalPage.FacilityColorsDistinct | cms_web_frontend/src/components/pages/MedicalPage.tsx:65-76 | the three facility types get three different colours |
| EventsPage.TrimStart | cms_web_frontend/src/components/pages/EventsPage.tsx:223 | drops exactly the leading ECMAScript white space |
| EventsPage.DigitPrefix | cms_web_frontend/src/components/pages/EventsPage.tsx:223 | reads the longest run of digits of the radix |
| EventsPage.ParseInt | cms_web_frontend/src/components/pages/EventsPage.tsx:223 | NaN exactly when the text after the white space, sign and `0x` prefix is empty or does not start with a digit of the radix; otherwise a leading `-` negates the value of that text's maximal digit run |
| EventsPage.TrimmedMeaning | cms_web_frontend/src/components/pages/EventsPage.tsx:223 | on text with its white space gone, the same NaN condition and signed value of the maximal digit run as `parseInt` |
| EventsPage.RunIsDigitPrefix | cms_web_frontend/src/components/pages/EventsPage.tsx:223 | the digits read are the one maximal run of radix digits, digit for digit |
| EventsPage.ParseDecimal | cms_web_frontend/src/components/pages/EventsPage.tsx:223 | parsing a rendered decimal integer gives the integer back |
| EventsPage.LeadingSpaceIgnored | cms_web_frontend/src/components/pages/EventsPage.tsx:223 | leading white space does not change the result |
| EventsPage.TrailingTextIgnored | cms_web_frontend/src/components/pages/EventsPage.tsx:223 | text after the digits is ignored, except that a lone 0 before x reads as a hex prefix |
| EventsPage.CapacityInput | cms_web_frontend/src/components/pages/EventsPage.tsx:223 | the capacity is 0 exactly when the input is NaN or zero, and otherwise the parsed value |
| EventsPage.OrganizerId | cms_web_frontend/src/components/pages/EventsPage.tsx:34 | the stored user id when non-empty, otherwise ORG_DEFAULT_123 |
| EventsPage.BuildPayload | cms_web_frontend/src/components/pages/EventsPage.tsx:36-47 | empty optional strings and zero capacity are absent; name, location, date and attendees are copied; areas is empty; reading the payload back gives the form |
| EventsPage.PayloadDeterminesForm | cms_web_frontend/src/components/pages/EventsPage.tsx:36-47 | two forms giving the same payload are the same form |
| EventsPage.ErrorText | cms_web_frontend/src/components/pages/EventsPage.tsx:65 | the error is the detail, else the message, else the fixed text, and never empty |
| EventsPage.HandleSubmit | cms_web_frontend/src/components/pages/EventsPage.tsx:27-70 | loading while sending; success closes and resets the form and reloads events; failure keeps the form and shows the error; loading ends either way |
| AuthContext.Restore | cms_web_frontend/src/contexts/AuthContext.tsx:17-23 | a stored organizer becomes the session, and loading ends |
| AuthContext.Mount | cms_web_frontend/src/contexts/AuthContext.tsx:14-23 | after mounting, signed in exactly when the session key is stored, with the stored organizer |
| AuthContext.Login | cms_web_frontend/src/contexts/AuthContext.tsx:25-38 | succeeds exactly for admin123/password123, storing and setting the fixed organizer; failure changes nothing; other keys are kept |
| AuthContext.Logout | cms_web_frontend/src/contexts/AuthContext.tsx:40-43 | no organizer, the session key removed and every other key kept |
| AuthContext.LoginSurvivesReload | cms_web_frontend/src/contexts/AuthContext.tsx:20-34 | a reload after login restores the same organizer |
| AuthContext.LoginIdempotent | cms_web_frontend/src/contexts/AuthContext.tsx:26-35 | logging in twice is the same as once |
| AuthContext.LogoutSurvivesReload | cms_web_frontend/src/contexts/AuthContext.tsx:18-42 | a reload after logout starts signed out |
| AuthContext.AppScreen | cms_web_frontend/src/App.tsx:5-17 | loading screen exactly while loading, dashboard exactly when signed in |
| AuthContext.MountScreen | cms_web_frontend/src/App.tsx:5-17 | opening the app shows the dashboard exactly when a session is stored |
| Inference.ParseBool | backend/routes/inference.py:31-37 | None is false, a bool is itself, a string is true exactly when lower-cased it is 1, true, yes or y |
| Inference.ParseBoolIgnoresCase | backend/routes/inference.py:36-37 | the letter case of the value does not matter |
| Inference.ParseBoolExamples | backend/routes/inference.py:36-37 | TRUE, Yes, Y and 1 are true; empty, 0, on and " true" are false |
| Inference.Radius | backend/routes/inference.py:39-43 | missing or empty radius gives none; otherwise `float()`, with none on error |
| Inference.ParseOptions | backend/routes/inference.py:87-100 | an absent save_record is false and an absent radius_m is none; a string save_record is true exactly for the true words in any case; an empty radius_m is none and any other string goes through `float()` |
| Inference.OtherFieldsIgnored | backend/routes/inference.py:87-100 | setting any field other than save_record and radius_m (the file, the event id) leaves the options unchanged |
| Inference.ResolveUpload | backend/routes/inference.py:22-130 | empty contents, an unreadable form without a file parameter and a missing `file` field give 400; a non-file `file` field gives 500 |
| Inference.Clamp | backend/routes/inference.py:212-213 | the fallback estimate is clamped into [1, 1000] and unchanged inside it |
| Inference.ClampStable | backend/routes/inference.py:212-213 | clamping is idempotent and monotone |
| Inference.Count | backend/routes/inference.py:132-213 | the model count wins, then LWCC, then the fallback estimate clamped into [1, 1000]; none only when all fail |
| Inference.InferCount | backend/routes/inference.py:22-282 | 400/500 on bad requests, 500 with no count, otherwise person_count is the count, density keys exactly for a non-zero radius whose area arithmetic does not raise, saved exactly when requested and equal to the save's success |
| Inference.BranchesAgree | backend/routes/inference.py:22-130 | sending the file as a parameter or as the form's `file` field gives the same outcome |
| Inference.EmptyUploadRejected | backend/routes/inference.py:57-113 | an empty upload is rejected with 400 in both branches |

## Left out

- The store client's transport, authentication and errors are left out. Selects, inserts and updates are modelled by their row semantics only.
- Ties in `created_at` are left out: the store's order among equal timestamps is unspecified, and the model fixes one.
- Asynchronous ordering is left out. This includes a stale response overwriting a newer selection, and refetch timing. Every action is modelled as completing before the next.
- React rendering, icons, the modal open wiring, `alert`, `console` output and the display formatting of numbers and dates are left out.
- FeedbackPage.CalculateStats: requires every rating to be in 1..5. Out-of-range ratings would add NaN or extra histogram keys in JavaScript.
- FeedbackPage.CalculateStats: means are exact rationals, not IEEE doubles. `avg * count == sum` holds exactly in the model but only up to rounding in JavaScript.
- FeedbackPage.CalculateStats: the breakdown is a map, so the insertion order of the object's keys is not modelled.
- EventsPage.ParseInt: results are unbounded integers. Doubles lose precision above 2^53, and `-0` is folded into 0; `|| 0` maps `-0` to 0 anyway.
- EventsPage.HandleSubmit: the error detail is modelled as an optional string. A non-string detail object is not modelled.
- AuthContext.Restore: storage holds records, not JSON text. A stored string that is empty or not valid JSON is not modelled.
- The `useAuth` exception thrown outside the provider is left out. It is React context plumbing.
- Inference.Radius: `float()` is the parameter `parseFloat` and yields exact reals. NaN and infinities are not modelled.
- The density values (`area_m2`, `people_per_m2`) are left out. Only whether their keys are present is modelled.
- In the inference handler, the torch model, LWCC, PIL/NumPy image analysis, temp-file writing, `fsync` and cleanup, and the density-record insert are left out. They appear only through their outcomes (`Backends`, `saveOk`).
- The temp-file "size is 0" error (500) is left out. It needs a write failure after non-empty contents, which is I/O.
- An upload without a filename is left out. The multipart parser always delivers a name. For a missing name, `Path(None)` would raise and the request would end with 500.
- EmergencyExitsPage.NewExit: the value of `last_updated` on insert is the parameter `stamp`. The table's column default is not part of this model.
- `image_filename`, `record_id`, `save_error` and the saved record's fields are left out. They echo inputs or database values.

=== FILE: auth.dfy ===
/**
 * The session held by the authentication context: the signed-in organizer,
 * the start-up loading flag, and the browser's key/value storage the session
 * is persisted in.  Stored records are kept as records (their JSON encoding
 * is assumed to round-trip), and only the key the context uses is read.
 */
module AuthContext {
  import opened Wrappers
  import opened Types

  /** The storage key the session is kept under. */
  const OrganizerKey: string := "organizer"

  /** The one credential pair `login` accepts, and the organizer it signs in. */
  const TestId: string := "admin123"
  const TestPassword: string := "password123"
  const TestOrganizer: Organizer := Organizer("1", "admin123", "Test Organizer", "admin@crowdmanagement.com")

  datatype AuthState = AuthState(organizer: Option<Organizer>, isLoading: bool, storage: map<string, Organizer>)

  /** Before the mount effect: nobody signed in, still loading. */
  function Initial(storage: map<string, Organizer>): AuthState {
    AuthState(None, true, storage)
  }

  /**
   * The mount effect: a stored organizer becomes the session; without one
   * the session is left as it is.  Loading ends either way.
   */
  function Restore(s: AuthState): (r: AuthState)
    ensures !r.isLoading && r.storage == s.storage
    ensures OrganizerKey in s.storage ==> r.organizer == Some(s.storage[OrganizerKey])
    ensures OrganizerKey !in s.storage ==> r.organizer == s.organizer
  {
    var org := if OrganizerKey in s.storage then Some(s.storage[OrganizerKey]) else s.organizer;
    s.(organizer := org, isLoading := false)
  }

  /** Opening the application with a given storage. */
  function Mount(storage: map<string, Organizer>): (r: AuthState)
    ensures !r.isLoading && r.storage == storage
    ensures r.organizer.Some? <==> OrganizerKey in storage
    ensures r.organizer.Some? ==> r.organizer.value == storage[OrganizerKey]
  {
    Restore(Initial(storage))
  }

  datatype LoginResult = LoginResult(ok: bool, state: AuthState)

  /**
   * `login`: the fixed pair signs in the fixed organizer and stores it under
   * the session key; anything else is refused and changes nothing.
   */
  function Login(s: AuthState, organizerId: string, password: string): (r: LoginResult)
    ensures r.ok <==> organizerId == TestId && password == TestPassword
    ensures !r.ok ==> r.state == s
    ensures r.ok ==> r.state.organizer == Some(TestOrganizer)
    ensures r.ok ==> r.state.storage.Keys == s.storage.Keys + {OrganizerKey}
    ensures r.ok ==> r.state.storage[OrganizerKey] == TestOrganizer
    ensures forall k :: k in s.storage && k != OrganizerKey ==> k in r.state.storage && r.state.storage[k] == s.storage[k]
    ensures r.state.isLoading == s.isLoading
  {
    if organizerId == TestId && password == TestPassword then
      LoginResult(true, s.(organizer := Some(TestOrganizer), storage := s.storage[OrganizerKey := TestOrganizer]))
    else
      LoginResult(false, s)
  }

  /** `logout`: no organizer, and the session key removed from storage. */
  function Logout(s: AuthState): (r: AuthState)
    ensures r.organizer.None? && r.isLoading == s.isLoading
    ensures OrganizerKey !in r.storage
    ensures forall k :: k != OrganizerKey ==> (k in r.storage <==> k in s.storage)
    ensures forall k :: k in r.storage ==> r.storage[k] == s.storage[k]
  {
    AuthState(None, s.isLoading, s.storage - {OrganizerKey})
  }

  /** A session signed in by `login` survives a reload: mounting on its storage restores the same organizer. */
  lemma LoginSurvivesReload(s: AuthState, organizerId: string, password: string)
    requires Login(s, organizerId, password).ok
    ensures Mount(Login(s, organizerId, password).state.storage).organizer
            == Login(s, organizerId, password).state.organizer
  {
  }

  /** Logging in again with the same credentials changes nothing. */
  lemma LoginIdempotent(s: AuthState, organizerId: string, password: string)
    ensures var once := Login(s, organizerId, password);
            Login(once.state, organizerId, password) == once
  {
    var once := Login(s, organizerId, password);
    if once.ok {
      assert once.state.storage[OrganizerKey := TestOrganizer] == once.state.storage;
    }
  }

  /** After logging out, a reload starts signed out. */
  lemma LogoutSurvivesReload(s: AuthState)
    ensures Mount(Logout(s).storage).organizer.None?
  {
  }

  // ---------------------------------------------------------------- the application shell

  datatype Screen = LoadingScreen | DashboardScreen | LoginScreen

  /** `AppContent`: loading first, then the dashboard when signed in, otherwise the login form. */
  function AppScreen(s: AuthState): (sc: Screen)
    ensures sc == LoadingScreen <==> s.isLoading
    ensures sc == DashboardScreen <==> !s.isLoading && s.organizer.Some?
  {
    if s.isLoading then LoadingScreen
    else if s.organizer.Some? then DashboardScreen
    else LoginScreen
  }

  /** Opening the application lands on the dashboard exactly when a session is stored. */
  lemma MountScreen(storage: map<string, Organizer>)
    ensures AppScreen(Mount(storage)) == (if OrganizerKey in storage then DashboardScreen else LoginScreen)
  {
  }
}

=== FILE: emergency_exits.dfy ===
/**
 * The emergency-exits page: the selected event's exits newest first, an
 * "add exit" form whose insert is tagged with the selected event, and three
 * status buttons per exit that rewrite its status and `last_updated` stamp.
 */
module EmergencyExitsPage {
  import opened Wrappers
  import opened Types
  import Store

  datatype ExitForm = ExitForm(exit_name: string, location: string, status: ExitStatus)

  /** The form as it opens and as a successful insert leaves it. */
  const EmptyForm: ExitForm := ExitForm("", "", Clear)

  datatype PageState = PageState(
    selectedEvent: string, exits: seq<EmergencyExit>, showAddModal: bool, form: ExitForm)

  function OfEvent(ev: string): EmergencyExit -> bool {
    (x: EmergencyExit) => x.event_id == ev
  }

  function CreatedAt(x: EmergencyExit): int {
    x.created_at
  }

  /** `loadExits`: the selected event's exits newest first; no data leaves the list alone. */
  function LoadExits(s: PageState, table: seq<EmergencyExit>, storeUp: bool): (r: PageState)
    ensures !storeUp ==> r == s
    ensures r.(exits := s.exits) == s
    ensures storeUp ==> forall x :: x in r.exits <==> x in table && x.event_id == s.selectedEvent
    ensures storeUp ==> multiset(r.exits) == multiset(Store.Where(table, OfEvent(s.selectedEvent)))
    ensures storeUp ==> Store.NewestFirst(r.exits, CreatedAt)
  {
    if storeUp then s.(exits := Store.Select(table, OfEvent(s.selectedEvent), CreatedAt)) else s
  }

  /** Choosing an event: the effect fetches only for a changed, non-empty selection. */
  function SelectEvent(s: PageState, ev: string, table: seq<EmergencyExit>, storeUp: bool): (r: PageState)
    ensures r.selectedEvent == ev
    ensures r.form == s.form && r.showAddModal == s.showAddModal
    ensures ev == "" || ev == s.selectedEvent ==> r.exits == s.exits
    ensures !storeUp ==> r.exits == s.exits
    ensures ev != "" && ev != s.selectedEvent && storeUp ==>
              (forall x :: x in r.exits <==> x in table && x.event_id == ev)
              && multiset(r.exits) == multiset(Store.Where(table, OfEvent(ev)))
              && Store.NewestFirst(r.exits, CreatedAt)
  {
    if ev == s.selectedEvent then s
    else if ev != "" then LoadExits(s.(selectedEvent := ev), table, storeUp)
    else s.(selectedEvent := ev)
  }

  // ---------------------------------------------------------------- adding an exit

  /** The page and the table after one action. */
  datatype Step = Step(page: PageState, table: seq<EmergencyExit>)

  /**
   * The row an accepted insert stores: the selected event, the form's three
   * fields, and the id and time the store assigned.  The insert sends no
   * `last_updated`; `stamp` is whatever the table's column default puts there.
   */
  function NewExit(ev: string, form: ExitForm, id: string, at: Timestamp, stamp: Timestamp): (x: EmergencyExit)
    ensures x.event_id == ev
    ensures ExitForm(x.exit_name, x.location, x.status) == form
    ensures x.id == id && x.created_at == at && x.last_updated == stamp
  {
    EmergencyExit(id, ev, form.exit_name, form.location, form.status, stamp, at)
  }

  /**
   * `handleSubmit`: insert the form as a new exit of the selected event; on
   * success close the dialog, reset the form and reload; on error change nothing.
   * `stamp` is the `last_updated` value the store gives the new row.
   */
  function HandleSubmit(s: PageState, table: seq<EmergencyExit>, outcome: Store.WriteOutcome,
                        stamp: Timestamp, storeUp: bool): (r: Step)
    ensures outcome.Rejected? ==> r == Step(s, table)
    ensures outcome.Stored? ==>
              |r.table| == |table| + 1 && r.table[..|table|] == table
              && r.table[|table|] == NewExit(s.selectedEvent, s.form, outcome.id, outcome.at, stamp)
    ensures outcome.Stored? ==> r.page.form == EmptyForm && !r.page.showAddModal
    ensures outcome.Stored? ==> r.page.selectedEvent == s.selectedEvent
    ensures outcome.Stored? && storeUp ==>
              NewExit(s.selectedEvent, s.form, outcome.id, outcome.at, stamp) in r.page.exits
    ensures outcome.Stored? && storeUp ==>
              multiset(r.page.exits) == multiset(Store.Where(r.table, OfEvent(s.selectedEvent)))
              && Store.NewestFirst(r.page.exits, CreatedAt)
    ensures outcome.Stored? && !storeUp ==> r.page.exits == s.exits
  {
    match outcome
    case Rejected => Step(s, table)
    case Stored(id, at) =>
      var t := table + [NewExit(s.selectedEvent, s.form, id, at, stamp)];
      assert t[|table|] in t;
      Step(LoadExits(s.(showAddModal := false, form := EmptyForm), t, storeUp), t)
  }

  // ---------------------------------------------------------------- status buttons

  function WithId(id: string): EmergencyExit -> bool {
    (x: EmergencyExit) => x.id == id
  }

  function Restamp(st: ExitStatus, now: Timestamp): EmergencyExit -> EmergencyExit {
    (x: EmergencyExit) => x.(status := st, last_updated := now)
  }

  /**
   * `update({ status, last_updated }).eq('id', id)`: the rows with that id
   * get the status and the time; no other field and no other row changes.
   */
  function SetStatus(table: seq<EmergencyExit>, id: string, st: ExitStatus, now: Timestamp)
    : (r: seq<EmergencyExit>)
    ensures |r| == |table|
    ensures forall i :: 0 <= i < |table| ==>
              r[i].(status := table[i].status, last_updated := table[i].last_updated) == table[i]
    ensures forall i :: 0 <= i < |table| && table[i].id == id ==> r[i].status == st && r[i].last_updated == now
    ensures forall i :: 0 <= i < |table| && table[i].id != id ==> r[i] == table[i]
  {
    Store.UpdateWhere(table, WithId(id), Restamp(st, now))
  }

  /**
   * `updateExitStatus`: the write's result is not inspected and the selected
   * event's exits are reloaded in every case.  `now` is the client's clock.
   */
  function UpdateExitStatus(s: PageState, table: seq<EmergencyExit>, id: string, st: ExitStatus,
                            now: Timestamp, writeOk: bool, storeUp: bool): (r: Step)
    ensures !writeOk ==> r.table == table
    ensures writeOk ==> r.table == SetStatus(table, id, st, now)
    ensures r.page == LoadExits(s, r.table, storeUp)
  {
    var t := if writeOk then SetStatus(table, id, st, now) else table;
    Step(LoadExits(s, t, storeUp), t)
  }

  /**
   * After an accepted update and a successful reload, the listed exits show
   * the exit with its new status and the update time.
   */
  lemma UpdateIsListed(s: PageState, table: seq<EmergencyExit>, i: nat, st: ExitStatus, now: Timestamp)
    requires i < |table| && table[i].event_id == s.selectedEvent
    ensures exists x :: x in UpdateExitStatus(s, table, table[i].id, st, now, true, true).page.exits
                        && x.id == table[i].id && x.status == st && x.last_updated == now
                        && x.created_at == table[i].created_at
  {
    var t := SetStatus(table, table[i].id, st, now);
    assert t[i] in t;
    assert t[i].event_id == table[i].event_id;
  }

  // ---------------------------------------------------------------- colours

  /** The three Tailwind classes (background, text, border) each status badge uses, in one hue. */
  function Palette(hue: string): string {
    "bg-" + hue + "-500/20 text-" + hue + "-300 border-" + hue + "-400/30"
  }

  const ClearColor: string := Palette("green")
  const ModerateColor: string := Palette("amber")
  const CrowdedColor: string := Palette("red")
  const DefaultColor: string := Palette("gray")

  /** `getStatusColor`: one class per exit status, gray for any other string. */
  function GetStatusColor(status: string): (c: string)
    ensures c == DefaultColor <==> ParseExitStatus(status).None?
    ensures c in {ClearColor, ModerateColor, CrowdedColor, DefaultColor}
    ensures ParseExitStatus(status) == Some(Clear) ==> c == ClearColor
    ensures ParseExitStatus(status) == Some(Moderate) ==> c == ModerateColor
    ensures ParseExitStatus(status) == Some(Crowded) ==> c == CrowdedColor
  {
    assert ClearColor[5] == 'e' && ModerateColor[5] == 'b' && CrowdedColor[5] == 'd' && DefaultColor[5] == 'a';
    match ParseExitStatus(status)
    case Some(Clear) => ClearColor
    case Some(Moderate) => ModerateColor
    case Some(Crowded) => CrowdedColor
    case None => DefaultColor
  }

  /** Different statuses get different colours. */
  lemma StatusColorsDistinct(a: ExitStatus, b: ExitStatus)
    ensures GetStatusColor(ExitStatusName(a)) == GetStatusColor(ExitStatusName(b)) <==> a == b
  {
    assert ClearColor[5] == 'e' && ModerateColor[5] == 'b' && CrowdedColor[5] == 'd';
    assert ParseExitStatus(ExitStatusName(a)) == Some(a);
    assert ParseExitStatus(ExitStatusName(b)) == Some(b);
  }
}

=== FILE: events.dfy ===
/**
 * The events page's "create event" dialog: the capacity field's integer
 * parsing, the mapping from form fields to the create payload, and the
 * loading / error / form state around the create call.
 */
module EventsPage {
  import opened Wrappers

  // ---------------------------------------------------------------- parseInt

  /**
   * The characters `parseInt` skips before the number: the ECMAScript
   * WhiteSpace set (tab, vertical tab, form feed, space, no-break space,
   * byte-order mark and the space separators) and the LineTerminator set.
   */
  predicate IsJsSpace(c: char) {
    var n := c as int;
    n == 0x09 || n == 0x0B || n == 0x0C || n == 0x20 || n == 0xA0 || n == 0xFEFF
    || n == 0x1680 || (0x2000 <= n <= 0x200A) || n == 0x202F || n == 0x205F || n == 0x3000
    || n == 0x0A || n == 0x0D || n == 0x2028 || n == 0x2029
  }

  /** Drops the leading white space. */
  function TrimStart(s: string): (r: string)
    ensures |r| <= |s| && r == s[|s| - |r|..]
    ensures r == [] || !IsJsSpace(r[0])
    ensures forall i :: 0 <= i < |s| - |r| ==> IsJsSpace(s[i])
  {
    if s != [] && IsJsSpace(s[0]) then TrimStart(s[1..]) else s
  }

  /** The value of a digit character in bases up to 36 (letters of either case count from 10). */
  function DigitValue(c: char): (d: Option<nat>)
    ensures d.Some? ==> d.value < 36
    ensures '0' <= c <= '9' <==> d.Some? && d.value < 10
  {
    if '0' <= c <= '9' then Some(c as int - '0' as int)
    else if 'a' <= c <= 'z' then Some(c as int - 'a' as int + 10)
    else if 'A' <= c <= 'Z' then Some(c as int - 'A' as int + 10)
    else None
  }

  predicate IsDigit(c: char, radix: nat) {
    DigitValue(c).Some? && DigitValue(c).value < radix
  }

  /** The longest prefix of `s` made of digits of the radix, as digit values. */
  function DigitPrefix(s: string, radix: nat): (ds: seq<nat>)
    ensures |ds| <= |s|
    ensures forall i :: 0 <= i < |ds| ==> IsDigit(s[i], radix) && ds[i] == DigitValue(s[i]).value
    ensures |ds| < |s| ==> !IsDigit(s[|ds|], radix)
  {
    if s != [] && IsDigit(s[0], radix) then [DigitValue(s[0]).value] + DigitPrefix(s[1..], radix)
    else []
  }

  /** Positional value of a digit sequence, most significant digit first. */
  function ValueOf(ds: seq<nat>, radix: nat): nat {
    if ds == [] then 0 else ValueOf(ds[..|ds| - 1], radix) * radix + ds[|ds| - 1]
  }

  /**
   * `parseInt(s)` with no radix: skip leading white space, take an optional
   * sign, then a `0x`/`0X` prefix switches to base 16; the longest run of
   * digits that follows is the number, and no digits at all is `NaN` (here
   * `None`).  Whatever follows the digits is ignored.
   */
  function ParseInt(s: string): (r: Option<int>)
    ensures var t := TrimStart(s); var d := AfterPrefix(t);
            r.None? <==> d == [] || !IsDigit(d[0], RadixOf(t))
    ensures var t := TrimStart(s); var d := AfterPrefix(t);
            r.Some? ==> exists k: nat :: 0 < k && MaximalRun(d, RadixOf(t), k)
    ensures var t := TrimStart(s); var d := AfterPrefix(t);
            r.Some? ==> forall k: nat :: MaximalRun(d, RadixOf(t), k) ==>
              (if t != [] && t[0] == '-' then -r.value else r.value) == ValueOf(DigitValues(d[..k]), RadixOf(t))
  {
    TrimmedMeaning(TrimStart(s));
    ParseTrimmed(TrimStart(s))
  }

  /** `parseInt` after the white space, stated on the characters of the text after the sign and prefix. */
  lemma TrimmedMeaning(t: string)
    ensures var d := AfterPrefix(t);
            ParseTrimmed(t).None? <==> d == [] || !IsDigit(d[0], RadixOf(t))
    ensures var d := AfterPrefix(t);
            ParseTrimmed(t).Some? ==> exists k: nat :: 0 < k && MaximalRun(d, RadixOf(t), k)
    ensures var d := AfterPrefix(t); var r := ParseTrimmed(t);
            r.Some? ==> forall k: nat :: MaximalRun(d, RadixOf(t), k) ==>
              (if t != [] && t[0] == '-' then -r.value else r.value) == ValueOf(DigitValues(d[..k]), RadixOf(t))
  {
    RunIsDigitPrefix(AfterPrefix(t), RadixOf(t));
  }

  /** The first `k` characters of `d` are digits of the radix and the next one, if any, is not. */
  predicate MaximalRun(d: string, radix: nat, k: nat) {
    k <= |d| && (forall i :: 0 <= i < k ==> IsDigit(d[i], radix)) && (k == |d| || !IsDigit(d[k], radix))
  }

  /** The digit prefix read is the one maximal run of digits, digit by digit. */
  lemma RunIsDigitPrefix(d: string, radix: nat)
    ensures MaximalRun(d, radix, |DigitPrefix(d, radix)|)
    ensures forall k: nat :: MaximalRun(d, radix, k) ==> DigitPrefix(d, radix) == DigitValues(d[..k])
  {
  }

  /** `parseInt` on input whose leading white space is already gone. */
  function ParseTrimmed(t: string): Option<int> {
    var ds := ReadDigits(t);
    if ds == [] then None else Some(SignOf(t) * ValueOf(ds, RadixOf(t)))
  }

  function SignOf(t: string): int {
    if t != [] && t[0] == '-' then -1 else 1
  }

  /** The trimmed input without its sign. */
  function Unsigned(t: string): string {
    if t != [] && (t[0] == '-' || t[0] == '+') then t[1..] else t
  }

  predicate HexPrefixed(u: string) {
    |u| >= 2 && u[0] == '0' && (u[1] == 'x' || u[1] == 'X')
  }

  function RadixOf(t: string): nat {
    if HexPrefixed(Unsigned(t)) then 16 else 10
  }

  /** The trimmed input after its sign and any hexadecimal prefix. */
  function AfterPrefix(t: string): string {
    var u := Unsigned(t);
    if HexPrefixed(u) then u[2..] else u
  }

  /** The digits read: after the sign and the hexadecimal prefix, as long as they are digits of the radix. */
  function ReadDigits(t: string): seq<nat> {
    DigitPrefix(AfterPrefix(t), RadixOf(t))
  }

  /**
   * The capacity input's handler, `parseInt(value) || 0`: a value that does
   * not parse, and a parsed zero, both give 0.
   */
  function CapacityInput(value: string): (capacity: int)
    ensures capacity == 0 <==> ParseInt(value).None? || ParseInt(value).value == 0
    ensures ParseInt(value).Some? ==> capacity == ParseInt(value).value
  {
    match ParseInt(value)
    case None => 0
    case Some(n) => n
  }

  // ---------------------------------------------------------------- decimal rendering, for the round trip

  function DigitChar(d: nat): (c: char)
    requires d < 10
    ensures DigitValue(c) == Some(d)
  {
    ('0' as int + d) as char
  }

  /** The usual decimal rendering of a natural number, without leading zeros. */
  function Digits(n: nat): (s: string)
    ensures |s| > 0
    ensures n >= 10 ==> s[0] != '0'
    ensures forall i :: 0 <= i < |s| ==> IsDigit(s[i], 10)
  {
    if n < 10 then [DigitChar(n)] else Digits(n / 10) + [DigitChar(n % 10)]
  }

  function DecimalString(n: int): string {
    if n < 0 then "-" + Digits(-n) else Digits(n)
  }

  /** Reading back a rendered decimal number gives the number. */
  lemma ParseDecimal(n: int)
    ensures ParseInt(DecimalString(n)) == Some(n)
  {
    var s := DecimalString(n);
    var m: nat := if n < 0 then -n else n;
    var ds := Digits(m);
    assert IsDigit(ds[0], 10);
    assert s[0] == '-' || s[0] == ds[0];
    assert !IsJsSpace(s[0]);
    assert TrimStart(s) == s;
    assert Unsigned(s) == ds;
    assert !HexPrefixed(ds);
    DigitsValue(m);
    assert ReadDigits(s) == DigitValues(ds);
  }

  /** The digits of a rendered number are all read, and their value is the number. */
  lemma {:induction false} DigitsValue(n: nat)
    ensures DigitPrefix(Digits(n), 10) == DigitValues(Digits(n))
    ensures ValueOf(DigitValues(Digits(n)), 10) == n
  {
    AllDigits(Digits(n), 10);
    if n >= 10 {
      DigitsValue(n / 10);
      var ds := DigitValues(Digits(n));
      assert ds[..|ds| - 1] == DigitValues(Digits(n / 10));
    }
  }

  function DigitOf(c: char): nat {
    DigitValue(c).GetOr(0)
  }

  function DigitValues(s: string): (ds: seq<nat>)
    ensures |ds| == |s|
  {
    seq(|s|, i requires 0 <= i < |s| => DigitOf(s[i]))
  }

  /** A string made only of digits is read in full. */
  lemma {:induction false} AllDigits(s: string, radix: nat)
    requires forall i :: 0 <= i < |s| ==> IsDigit(s[i], radix)
    ensures |DigitPrefix(s, radix)| == |s|
  {
    if s != [] {
      AllDigits(s[1..], radix);
    }
  }

  /** White space before the number does not change what `parseInt` reads. */
  lemma LeadingSpaceIgnored(c: char, s: string)
    requires IsJsSpace(c)
    ensures ParseInt([c] + s) == ParseInt(s)
  {
    assert ([c] + s)[1..] == s;
    assert TrimStart([c] + s) == TrimStart(s);
  }

  /**
   * Text after the digits (a decimal point, an exponent, a unit) is ignored,
   * except that a lone `0` followed by `x` or `X` is a hexadecimal prefix.
   */
  lemma TrailingTextIgnored(n: nat, rest: string)
    requires rest == [] || (!IsDigit(rest[0], 10) && (n == 0 ==> rest[0] != 'x' && rest[0] != 'X'))
    ensures ParseInt(Digits(n) + rest) == Some(n)
  {
    var s := Digits(n) + rest;
    var ds := Digits(n);
    NotHexPrefixed(n, rest);
    assert s[0] == ds[0] && IsDigit(ds[0], 10);
    assert !IsJsSpace(s[0]);
    assert TrimStart(s) == s;
    assert Unsigned(s) == s;
    DigitsValue(n);
    PrefixThenStop(ds, rest, 10);
  }

  lemma NotHexPrefixed(n: nat, rest: string)
    requires rest == [] || (!IsDigit(rest[0], 10) && (n == 0 ==> rest[0] != 'x' && rest[0] != 'X'))
    ensures !HexPrefixed(Digits(n) + rest)
  {
    var s := Digits(n) + rest;
    if |s| >= 2 && s[0] == '0' {
      assert n < 10;
    }
  }

  /** Digits followed by a non-digit: the prefix read is exactly the digits. */
  lemma {:induction false} PrefixThenStop(ds: string, rest: string, radix: nat)
    requires forall i :: 0 <= i < |ds| ==> IsDigit(ds[i], radix)
    requires rest == [] || !IsDigit(rest[0], radix)
    ensures DigitPrefix(ds + rest, radix) == DigitPrefix(ds, radix)
  {
    if ds != [] {
      assert (ds + rest)[1..] == ds[1..] + rest;
      PrefixThenStop(ds[1..], rest, radix);
    } else {
      assert ds + rest == rest;
    }
  }

  // ---------------------------------------------------------------- the create payload

  datatype EventForm = EventForm(
    name: string, description: string, location: string, date: string,
    start_time: string, end_time: string, capacity: int, attendees_count: int)

  /** The form as the dialog opens and as a successful create leaves it. */
  const EmptyForm: EventForm := EventForm("", "", "", "", "", "", 0, 0)

  datatype EventPayload = EventPayload(
    name: string, description: Option<string>, location: string, date: string,
    start_time: Option<string>, end_time: Option<string>, capacity: Option<int>,
    attendees_count: int, organizer_id: string, areas: seq<string>)

  /** The organizer used when no `user_id` is stored. */
  const DefaultOrganizer: string := "ORG_DEFAULT_123"

  /** `localStorage.getItem('user_id') || 'ORG_DEFAULT_123'`. */
  function OrganizerId(storedUserId: Option<string>): (id: string)
    ensures id != ""
    ensures storedUserId.Some? && storedUserId.value != "" ==> id == storedUserId.value
    ensures storedUserId.None? || storedUserId.value == "" ==> id == DefaultOrganizer
  {
    match storedUserId
    case Some(u) => if Truthy(u) then u else DefaultOrganizer
    case None => DefaultOrganizer
  }

  /** `capacity || undefined`: zero is absent. */
  function OrAbsent(n: int): (r: Option<int>)
    ensures r.None? <==> n == 0
    ensures r.Some? ==> r.value == n
  {
    if n != 0 then Some(n) else None
  }

  /** The `eventData` object sent to the create call. */
  function BuildPayload(form: EventForm, storedUserId: Option<string>): (p: EventPayload)
    ensures p.name == form.name && p.location == form.location && p.date == form.date
    ensures p.attendees_count == form.attendees_count
    ensures p.description.None? <==> form.description == ""
    ensures p.start_time.None? <==> form.start_time == ""
    ensures p.end_time.None? <==> form.end_time == ""
    ensures p.capacity.None? <==> form.capacity == 0
    ensures p.organizer_id == OrganizerId(storedUserId)
    ensures p.areas == []
    ensures FormOf(p) == form
  {
    EventPayload(form.name, OrUndefined(form.description), form.location, form.date,
                 OrUndefined(form.start_time), OrUndefined(form.end_time), OrAbsent(form.capacity),
                 form.attendees_count, OrganizerId(storedUserId), [])
  }

  /** Reads a payload back into form fields, an absent field as the empty value. */
  function FormOf(p: EventPayload): EventForm {
    EventForm(p.name, p.description.GetOr(""), p.location, p.date, p.start_time.GetOr(""),
              p.end_time.GetOr(""), p.capacity.GetOr(0), p.attendees_count)
  }

  /** Two forms that give the same payload are the same form: dropping empties loses nothing. */
  lemma PayloadDeterminesForm(a: EventForm, b: EventForm, u: Option<string>, v: Option<string>)
    requires BuildPayload(a, u) == BuildPayload(b, v)
    ensures a == b
    ensures OrganizerId(u) == OrganizerId(v)
  {
    assert FormOf(BuildPayload(a, u)) == a;
    assert FormOf(BuildPayload(b, v)) == b;
  }

  // ---------------------------------------------------------------- submitting

  datatype PageState = PageState(
    showAddModal: bool, loading: bool, error: Option<string>, form: EventForm, eventsReloads: nat)

  /** How the create call ended: success, or an error with an optional response detail and message. */
  datatype CreateOutcome = Created | Failed(detail: Option<string>, message: Option<string>)

  const FallbackError: string := "Failed to create event"

  /** `detail || message || 'Failed to create event'`, where an empty string counts as missing. */
  function ErrorText(detail: Option<string>, message: Option<string>): (e: string)
    ensures e != ""
    ensures detail.Some? && detail.value != "" ==> e == detail.value
    ensures (detail.None? || detail.value == "") && message.Some? && message.value != "" ==> e == message.value
    ensures (detail.None? || detail.value == "") && (message.None? || message.value == "") ==> e == FallbackError
  {
    if detail.Some? && Truthy(detail.value) then detail.value
    else if message.Some? && Truthy(message.value) then message.value
    else FallbackError
  }

  /** One submission: the payload sent, the state while waiting, and the state afterwards. */
  datatype Submission = Submission(sent: EventPayload, during: PageState, after: PageState)

  /**
   * `handleSubmit`: set loading and clear the error, send the payload, then on
   * success close the dialog, reset the form and ask for the events to be
   * reloaded; on failure keep dialog and form and show the error; loading ends
   * in both cases.
   */
  function HandleSubmit(s: PageState, storedUserId: Option<string>, outcome: CreateOutcome): (r: Submission)
    ensures r.sent == BuildPayload(s.form, storedUserId)
    ensures r.during.loading && r.during.error.None?
    ensures r.during.form == s.form && r.during.showAddModal == s.showAddModal
    ensures !r.after.loading
    ensures outcome.Created? ==>
              && !r.after.showAddModal && r.after.form == EmptyForm && r.after.error.None?
              && r.after.eventsReloads == s.eventsReloads + 1
    ensures outcome.Failed? ==>
              && r.after.showAddModal == s.showAddModal && r.after.form == s.form
              && r.after.error == Some(ErrorText(outcome.detail, outcome.message))
              && r.after.eventsReloads == s.eventsReloads
  {
    var during := s.(loading := true, error := None);
    var settled := match outcome
      case Created => during.(showAddModal := false, form := EmptyForm, eventsReloads := s.eventsReloads + 1)
      case Failed(detail, message) => during.(error := Some(ErrorText(detail, message)));
    Submission(BuildPayload(s.form, storedUserId), during, settled.(loading := false))
  }
}

=== FILE: feedback.dfy ===
/**
 * The feedback analysis page: fetching an event's feedback and reducing it to
 * summary statistics (overall mean, total, per-category mean and count for the
 * categories that occur, and a zero-filled 1..5 rating histogram).
 */
module FeedbackPage {
  import opened Wrappers
  import opened Types
  import Store

  // ---------------------------------------------------------------- column views

  /** The ratings of the entries, in order. */
  function Ratings(fs: seq<Feedback>): (r: seq<int>)
    ensures |r| == |fs|
  {
    seq(|fs|, i requires 0 <= i < |fs| => fs[i].rating)
  }

  /** The categories of the entries, in order. */
  function Categories(fs: seq<Feedback>): (r: seq<Category>)
    ensures |r| == |fs|
  {
    seq(|fs|, i requires 0 <= i < |fs| => fs[i].category)
  }

  /** Every rating is a star count in 1..5. */
  predicate ValidRatings(fs: seq<Feedback>) {
    forall f :: f in fs ==> 1 <= f.rating <= 5
  }

  /** The bucket keys of the rating histogram. */
  const RatingScale: set<int> := {1, 2, 3, 4, 5}

  /** `reduce((sum, f) => sum + f.rating, 0)`. */
  function RatingSum(fs: seq<Feedback>): int {
    if fs == [] then 0 else fs[0].rating + RatingSum(fs[1..])
  }

  function InCategory(c: Category): Feedback -> bool {
    (f: Feedback) => f.category == c
  }

  function HasRating(k: int): Feedback -> bool {
    (f: Feedback) => f.rating == k
  }

  /** `feedbackData.filter(f => f.category === cat)`. */
  function OfCategory(fs: seq<Feedback>, c: Category): seq<Feedback> {
    Store.Where(fs, InCategory(c))
  }

  // ---------------------------------------------------------------- aggregation

  datatype CategoryStats = CategoryStats(avg: real, count: nat)

  datatype Stats = Stats(
    avgRating: real,
    totalFeedback: nat,
    categoryBreakdown: map<Category, CategoryStats>,
    ratingDistribution: map<int, nat>)

  /** Arithmetic mean of `count` ratings summing to `sum` (real division, not truncated). */
  function Mean(sum: int, count: nat): real
    requires count > 0
  {
    sum as real / count as real
  }

  /** `avg` is the mean of `count` ratings that sum to `sum`: times the count it gives the sum back. */
  predicate AveragesTo(avg: real, sum: int, count: nat) {
    avg * (count as real) == sum as real
  }

  lemma MeanAverages(sum: int, count: nat)
    requires count > 0
    ensures AveragesTo(Mean(sum, count), sum, count)
  {
  }

  /**
   * One category's `{ avg, count }` over its entries, or nothing when the
   * category does not occur.
   */
  function CategoryEntry(fs: seq<Feedback>, c: Category): (e: Option<CategoryStats>)
    ensures e.Some? <==> exists f :: f in fs && f.category == c
    ensures e.Some? ==> e.value.count == multiset(Categories(fs))[c]
    ensures e.Some? ==> e.value.count > 0
    ensures e.Some? ==> AveragesTo(e.value.avg, RatingSum(OfCategory(fs, c)), e.value.count)
  {
    var sub := OfCategory(fs, c);
    Store.WhereNonEmpty(fs, InCategory(c));
    CategoryCount(fs, c);
    if |sub| > 0 then
      MeanAverages(RatingSum(sub), |sub|);
      Some(CategoryStats(Mean(RatingSum(sub), |sub|), |sub|))
    else None
  }

  /** Mean and count for each listed category that occurs; absent categories get no key. */
  function Breakdown(fs: seq<Feedback>): (m: map<Category, CategoryStats>)
    ensures forall c :: c in m <==> CategoryEntry(fs, c).Some?
    ensures forall c :: c in m ==> m[c] == CategoryEntry(fs, c).value
  {
    forall c ensures c in CategoryOrder {
      ListedCategory(c);
    }
    map c | c in CategoryOrder && CategoryEntry(fs, c).Some? :: CategoryEntry(fs, c).value
  }

  /**
   * The histogram, built as the page builds it: start from five zero buckets
   * and let each entry, in order, increment the bucket of its own rating.
   */
  function Tally(fs: seq<Feedback>): (dist: map<int, nat>)
    requires ValidRatings(fs)
    ensures dist.Keys == RatingScale
    ensures forall k :: k in dist ==> dist[k] == multiset(Ratings(fs))[k]
  {
    if fs == [] then map[1 := 0, 2 := 0, 3 := 0, 4 := 0, 5 := 0]
    else
      var init, last := fs[..|fs| - 1], fs[|fs| - 1];
      RatingsOfLast(fs);
      var prev := Tally(init);
      BumpBucket(prev, multiset(Ratings(init)), last.rating);
      prev[last.rating := prev[last.rating] + 1]
  }

  /** Incrementing the bucket of `x` in a histogram of `m` gives the histogram of `m` plus one `x`. */
  lemma BumpBucket(prev: map<int, nat>, m: multiset<int>, x: int)
    requires prev.Keys == RatingScale && 1 <= x <= 5
    requires forall k :: k in prev ==> prev[k] == m[k]
    ensures x in prev
    ensures prev[x := prev[x] + 1].Keys == RatingScale
    ensures forall k :: k in prev[x := prev[x] + 1] ==> prev[x := prev[x] + 1][k] == (m + multiset{x})[k]
  {
  }

  /** Dropping the last entry removes one copy of its rating from the rating column. */
  lemma RatingsOfLast(fs: seq<Feedback>)
    requires fs != []
    ensures ValidRatings(fs) ==> ValidRatings(fs[..|fs| - 1]) && 1 <= fs[|fs| - 1].rating <= 5
    ensures multiset(Ratings(fs)) == multiset(Ratings(fs[..|fs| - 1])) + multiset{fs[|fs| - 1].rating}
  {
    assert fs[|fs| - 1] in fs;
    assert forall f :: f in fs[..|fs| - 1] ==> f in fs;
    assert Ratings(fs) == Ratings(fs[..|fs| - 1]) + [fs[|fs| - 1].rating];
  }

  /** The page's `calculateStats`: no stats object at all for an empty list. */
  function CalculateStats(fs: seq<Feedback>): (r: Option<Stats>)
    requires ValidRatings(fs)
    ensures r.None? <==> fs == []
    ensures r.Some? ==> r.value.totalFeedback == |fs|
    ensures r.Some? ==> AveragesTo(r.value.avgRating, RatingSum(fs), |fs|)
    ensures r.Some? ==> forall c :: c in r.value.categoryBreakdown <==> exists f :: f in fs && f.category == c
    ensures r.Some? ==> forall c :: c in r.value.categoryBreakdown ==>
              && r.value.categoryBreakdown[c].count == multiset(Categories(fs))[c] > 0
              && AveragesTo(r.value.categoryBreakdown[c].avg, RatingSum(OfCategory(fs, c)), r.value.categoryBreakdown[c].count)
    ensures r.Some? ==> r.value.ratingDistribution.Keys == RatingScale
    ensures r.Some? ==> forall k :: k in r.value.ratingDistribution ==>
              r.value.ratingDistribution[k] == multiset(Ratings(fs))[k]
  {
    if fs == [] then None
    else
      MeanAverages(RatingSum(fs), |fs|);
      Some(Stats(Mean(RatingSum(fs), |fs|), |fs|, Breakdown(fs), Tally(fs)))
  }

  // ---------------------------------------------------------------- counting lemmas

  lemma ListedCategory(c: Category)
    ensures c in CategoryOrder
  {
    match c
    case General => assert CategoryOrder[0] == c;
    case Safety => assert CategoryOrder[1] == c;
    case Navigation => assert CategoryOrder[2] == c;
    case Facilities => assert CategoryOrder[3] == c;
    case Emergency => assert CategoryOrder[4] == c;
  }

  lemma {:induction false} RatingSumAppend(a: seq<Feedback>, b: seq<Feedback>)
    ensures RatingSum(a + b) == RatingSum(a) + RatingSum(b)
  {
    if a == [] {
      assert a + b == b;
    } else {
      assert (a + b)[0] == a[0];
      assert (a + b)[1..] == a[1..] + b;
      RatingSumAppend(a[1..], b);
    }
  }

  /** The filtered length equals the multiplicity of the category in the category column. */
  lemma {:induction false} CategoryCount(fs: seq<Feedback>, c: Category)
    ensures |OfCategory(fs, c)| == multiset(Categories(fs))[c]
  {
    if fs != [] {
      CategoryCount(fs[1..], c);
      assert Categories(fs) == [fs[0].category] + Categories(fs[1..]);
    }
  }

  /** The number of entries with rating `k` equals the multiplicity of `k` in the rating column. */
  lemma {:induction false} RatingCount(fs: seq<Feedback>, k: int)
    ensures |Store.Where(fs, HasRating(k))| == multiset(Ratings(fs))[k]
  {
    if fs != [] {
      RatingCount(fs[1..], k);
      assert Ratings(fs) == [fs[0].rating] + Ratings(fs[1..]);
    }
  }

  /** With ratings in 1..5, the sum lies between one and five stars per entry. */
  lemma {:induction false} RatingSumBounds(fs: seq<Feedback>)
    requires ValidRatings(fs)
    ensures |fs| <= RatingSum(fs) <= 5 * |fs|
  {
    if fs != [] {
      assert fs[0] in fs;
      assert forall f :: f in fs[1..] ==> f in fs;
      RatingSumBounds(fs[1..]);
    }
  }

  /** Reordering the entries leaves the rating sum unchanged. */
  lemma {:induction false} RatingSumPermutation(a: seq<Feedback>, b: seq<Feedback>)
    requires multiset(a) == multiset(b)
    ensures RatingSum(a) == RatingSum(b)
  {
    if a == [] {
      assert |b| == |multiset(b)| == 0;
    } else {
      var x := a[0];
      assert a == [x] + a[1..];
      assert x in multiset(b);
      var j :| 0 <= j < |b| && b[j] == x;
      var rest := RatingSumRemove(b, j);
      assert multiset(a[1..]) == multiset(a) - multiset{x};
      RatingSumPermutation(a[1..], rest);
    }
  }

  /** Taking out the entry at `j` takes its rating out of the sum and one copy of it out of the multiset. */
  lemma RatingSumRemove(b: seq<Feedback>, j: nat) returns (rest: seq<Feedback>)
    requires j < |b|
    ensures rest == b[..j] + b[j + 1..]
    ensures multiset(rest) == multiset(b) - multiset{b[j]}
    ensures RatingSum(b) == b[j].rating + RatingSum(rest)
  {
    rest := b[..j] + b[j + 1..];
    assert b == b[..j] + ([b[j]] + b[j + 1..]);
    RatingSumAppend(b[..j], [b[j]] + b[j + 1..]);
    RatingSumAppend([b[j]], b[j + 1..]);
    RatingSumAppend(b[..j], b[j + 1..]);
  }

  // ---------------------------------------------------------------- properties of the statistics

  /** The five histogram buckets account for every entry exactly once. */
  lemma {:induction false} HistogramAccountsForAll(fs: seq<Feedback>)
    requires ValidRatings(fs)
    ensures var d := Tally(fs); d[1] + d[2] + d[3] + d[4] + d[5] == |fs|
  {
    if fs != [] {
      var init := fs[..|fs| - 1];
      assert forall f :: f in init ==> f in fs;
      assert fs[|fs| - 1] in fs;
      HistogramAccountsForAll(init);
    }
  }

  /** The overall mean, and each category mean, lies on the 1..5 star scale. */
  lemma MeansWithinScale(fs: seq<Feedback>)
    requires ValidRatings(fs) && fs != []
    ensures 1.0 <= CalculateStats(fs).value.avgRating <= 5.0
    ensures forall c :: c in CalculateStats(fs).value.categoryBreakdown ==>
              1.0 <= CalculateStats(fs).value.categoryBreakdown[c].avg <= 5.0
  {
    MeanWithinScale(fs);
    forall c | c in CalculateStats(fs).value.categoryBreakdown
      ensures 1.0 <= CalculateStats(fs).value.categoryBreakdown[c].avg <= 5.0
    {
      MeanWithinScale(OfCategory(fs, c));
    }
  }

  lemma MeanWithinScale(fs: seq<Feedback>)
    requires ValidRatings(fs) && fs != []
    ensures 1.0 <= Mean(RatingSum(fs), |fs|) <= 5.0
  {
    RatingSumBounds(fs);
    DivisionBounds(RatingSum(fs) as real, |fs| as real, 1.0, 5.0);
  }

  lemma DivisionBounds(s: real, n: real, lo: real, hi: real)
    requires n > 0.0 && lo * n <= s <= hi * n
    ensures lo <= s / n <= hi
  {
    var q := s / n;
    assert q * n == s;
    assert (q - lo) * n >= 0.0;
    assert (hi - q) * n >= 0.0;
  }

  /** The statistics do not depend on the order the store returns the entries in. */
  lemma StatsOrderIndependent(a: seq<Feedback>, b: seq<Feedback>)
    requires ValidRatings(a) && multiset(a) == multiset(b)
    ensures ValidRatings(b)
    ensures CalculateStats(a) == CalculateStats(b)
  {
    forall f | f in b ensures f in a {
      assert f in multiset(b);
    }
    assert |a| == |multiset(a)| == |multiset(b)| == |b|;
    if a != [] {
      RatingSumPermutation(a, b);
      BreakdownOrderIndependent(a, b);
      TallyOrderIndependent(a, b);
    }
  }

  lemma BreakdownOrderIndependent(a: seq<Feedback>, b: seq<Feedback>)
    requires multiset(a) == multiset(b)
    ensures Breakdown(a) == Breakdown(b)
  {
    forall c ensures CategoryEntry(a, c) == CategoryEntry(b, c) {
      CategoryEntryOrderIndependent(a, b, c);
    }
  }

  lemma CategoryEntryOrderIndependent(a: seq<Feedback>, b: seq<Feedback>, c: Category)
    requires multiset(a) == multiset(b)
    ensures CategoryEntry(a, c) == CategoryEntry(b, c)
  {
    var sa, sb := OfCategory(a, c), OfCategory(b, c);
    Store.WherePermutation(a, b, InCategory(c));
    assert |sa| == |multiset(sa)| == |multiset(sb)| == |sb|;
    RatingSumPermutation(sa, sb);
  }

  lemma TallyOrderIndependent(a: seq<Feedback>, b: seq<Feedback>)
    requires ValidRatings(a) && ValidRatings(b) && multiset(a) == multiset(b)
    ensures Tally(a) == Tally(b)
  {
    forall k ensures multiset(Ratings(a))[k] == multiset(Ratings(b))[k] {
      var wa, wb := Store.Where(a, HasRating(k)), Store.Where(b, HasRating(k));
      RatingCount(a, k);
      RatingCount(b, k);
      Store.WherePermutation(a, b, HasRating(k));
      assert |wa| == |multiset(wa)| == |multiset(wb)| == |wb|;
    }
  }

  // ---------------------------------------------------------------- the page

  datatype PageState = PageState(selectedEvent: string, feedback: seq<Feedback>, stats: Option<Stats>)

  function OfEvent(ev: string): Feedback -> bool {
    (f: Feedback) => f.event_id == ev
  }

  function CreatedAt(f: Feedback): int {
    f.created_at
  }

  /**
   * `loadFeedback`: the event's feedback, newest first, with freshly computed
   * stats; when the store returns no data (`storeUp` false) nothing changes.
   */
  function LoadFeedback(s: PageState, table: seq<Feedback>, storeUp: bool): (r: PageState)
    requires ValidRatings(table)
    ensures !storeUp ==> r == s
    ensures r.selectedEvent == s.selectedEvent
    ensures storeUp ==> forall f :: f in r.feedback <==> f in table && f.event_id == s.selectedEvent
    ensures storeUp ==> multiset(r.feedback) == multiset(Store.Where(table, OfEvent(s.selectedEvent)))
    ensures storeUp ==> Store.NewestFirst(r.feedback, CreatedAt)
    ensures storeUp ==> ValidRatings(r.feedback) && r.stats == CalculateStats(r.feedback)
  {
    if !storeUp then s
    else
      var rows := Store.Select(table, OfEvent(s.selectedEvent), CreatedAt);
      s.(feedback := rows, stats := CalculateStats(rows))
  }

  /**
   * Choosing an event in the selector.  The load effect runs only when the
   * selection actually changes and is not the empty "Select an event" option.
   */
  function SelectEvent(s: PageState, ev: string, table: seq<Feedback>, storeUp: bool): (r: PageState)
    requires ValidRatings(table)
    ensures r.selectedEvent == ev
    ensures ev == "" ==> r.feedback == s.feedback && r.stats == s.stats
    ensures ev != "" && ev != s.selectedEvent && storeUp ==>
              (forall f :: f in r.feedback <==> f in table && f.event_id == ev)
              && multiset(r.feedback) == multiset(Store.Where(table, OfEvent(ev)))
              && Store.NewestFirst(r.feedback, CreatedAt)
              && r.stats == CalculateStats(r.feedback)
    ensures ev != "" && ev != s.selectedEvent && !storeUp ==> r.feedback == s.feedback && r.stats == s.stats
    ensures ev == s.selectedEvent ==> r == s
  {
    if ev == s.selectedEvent then s
    else if ev != "" then LoadFeedback(s.(selectedEvent := ev), table, storeUp)
    else s.(selectedEvent := ev)
  }
}

=== FILE: inference.dfy ===
/**
 * The backend's `POST /inference/count` handler, reduced to its decisions:
 * which request is rejected with which status, how the optional form fields
 * are read, which counting backend's answer is used (and how the heuristic
 * fallback is clamped), and which keys the JSON response carries.  The
 * counting backends themselves, float arithmetic and the database are inputs.
 */
module Inference {
  import opened Wrappers

  newtype byte = x: int | 0 <= x < 256

  /** An uploaded file as the multipart parser delivers it: its name and its bytes. */
  datatype Upload = Upload(filename: string, contents: seq<byte>)

  /** The Python values a form field can hold (`None` when the field is absent). */
  datatype PyValue = PyNone | PyBool(b: bool) | PyStr(s: string) | PyFile(upload: Upload)

  /** The parsed multipart form, or a body the form parser rejects. */
  datatype Form = Unparseable | Fields(fields: map<string, PyValue>)

  /** `form.get(key)`. */
  function Get(fields: map<string, PyValue>, key: string): (v: PyValue)
    ensures key !in fields ==> v == PyNone
    ensures key in fields ==> v == fields[key]
  {
    if key in fields then fields[key] else PyNone
  }

  // ---------------------------------------------------------------- _parse_bool

  /** Lower-cases the ASCII letters and leaves every other character alone. */
  function LowerAscii(s: string): (r: string)
    ensures |r| == |s|
    ensures forall i :: 0 <= i < |s| ==> r[i] == LowerChar(s[i])
  {
    seq(|s|, i requires 0 <= i < |s| => LowerChar(s[i]))
  }

  function LowerChar(c: char): (d: char)
    ensures !('A' <= d <= 'Z')
    ensures c == d || ('A' <= c <= 'Z' && d as int == c as int + 32)
  {
    if 'A' <= c <= 'Z' then (c as int + 32) as char else c
  }

  /** The spellings `_parse_bool` accepts as true, once lower-cased. */
  const TrueWords: set<string> := {"1", "true", "yes", "y"}

  /**
   * `_parse_bool`: `None` is false, a bool is itself, anything else is true
   * exactly when its lower-cased string form is one of the true words.  The
   * string form of an uploaded file is its object description, which is
   * never one of them.  Python's full Unicode lower-casing and ASCII
   * lower-casing agree on this test: no non-ASCII character lower-cases
   * into the letters of the true words.
   */
  function ParseBool(v: PyValue): (b: bool)
    ensures v.PyNone? || v.PyFile? ==> !b
    ensures v.PyBool? ==> b == v.b
    ensures v.PyStr? ==> (b <==> LowerAscii(v.s) in TrueWords)
  {
    match v
    case PyNone => false
    case PyBool(x) => x
    case PyStr(s) => LowerAscii(s) in TrueWords
    case PyFile(_) => false
  }

  /** Case does not matter to `_parse_bool`. */
  lemma ParseBoolIgnoresCase(s: string)
    ensures ParseBool(PyStr(s)) == ParseBool(PyStr(LowerAscii(s)))
  {
    LowerAsciiIdempotent(s);
  }

  lemma LowerAsciiIdempotent(s: string)
    ensures LowerAscii(LowerAscii(s)) == LowerAscii(s)
  {
  }

  /** Spellings accepted in any case, and near misses that are refused (no trimming happens). */
  lemma ParseBoolExamples()
    ensures ParseBool(PyStr("TRUE")) && ParseBool(PyStr("Yes")) && ParseBool(PyStr("Y")) && ParseBool(PyStr("1"))
    ensures !ParseBool(PyStr("")) && !ParseBool(PyStr("0")) && !ParseBool(PyStr("on")) && !ParseBool(PyStr(" true"))
  {
    assert LowerAscii("TRUE") == "true";
    assert LowerAscii("Yes") == "yes";
    assert LowerAscii("Y") == "y";
    assert LowerAscii("1") == "1";
    assert LowerAscii("0") == "0";
    assert LowerAscii("on") == "on";
    assert |LowerAscii(" true")| == 5;
  }

  // ---------------------------------------------------------------- optional fields

  /**
   * `radius_m`: absent and empty give no radius; a string goes through
   * `float()` (`parseFloat`, `None` when it raises), and an error gives no
   * radius; a file cannot be converted and gives no radius either.
   */
  function Radius(v: PyValue, parseFloat: string -> Option<real>): (r: Option<real>)
    ensures v.PyNone? || v.PyFile? || v == PyStr("") ==> r.None?
    ensures v.PyStr? && v.s != "" ==> r == parseFloat(v.s)
  {
    match v
    case PyNone => None
    case PyBool(x) => Some(if x then 1.0 else 0.0)
    case PyStr(s) => if s == "" then None else parseFloat(s)
    case PyFile(_) => None
  }

  /** The request options the handler reads from the form. */
  datatype Options = Options(saveRecord: bool, radius: Option<real>)

  /** What the direct-upload branch keeps when the form cannot be read. */
  const DefaultOptions: Options := Options(false, None)

  /**
   * The one reading of the option fields, shared by both request branches:
   * an absent field gives the default, and a string field is read through
   * `_parse_bool` / `float()`.
   */
  function ParseOptions(fields: map<string, PyValue>, parseFloat: string -> Option<real>): (o: Options)
    ensures "save_record" !in fields ==> !o.saveRecord
    ensures "radius_m" !in fields ==> o.radius.None?
    ensures "save_record" in fields && fields["save_record"].PyStr? ==>
              (o.saveRecord <==> LowerAscii(fields["save_record"].s) in TrueWords)
    ensures "radius_m" in fields && fields["radius_m"].PyStr? ==>
              o.radius == if fields["radius_m"].s == "" then None else parseFloat(fields["radius_m"].s)
  {
    Options(ParseBool(Get(fields, "save_record")), Radius(Get(fields, "radius_m"), parseFloat))
  }

  /** Only `save_record` and `radius_m` matter: setting any other field (the file, the event id) leaves the options alone. */
  lemma OtherFieldsIgnored(fields: map<string, PyValue>, key: string, v: PyValue,
                           parseFloat: string -> Option<real>)
    requires key != "save_record" && key != "radius_m"
    ensures ParseOptions(fields[key := v], parseFloat) == ParseOptions(fields, parseFloat)
  {
  }

  /** The options a request carries in whichever branch it takes. */
  function RequestOptions(file: Option<Upload>, form: Form, parseFloat: string -> Option<real>): (o: Options)
    ensures form.Unparseable? ==> o == DefaultOptions
  {
    match form
    case Unparseable => DefaultOptions
    case Fields(f) => ParseOptions(f, parseFloat)
  }

  // ---------------------------------------------------------------- validation

  /**
   * Finding the upload.  With a file parameter: only empty contents are
   * refused (400), and an unreadable form just means default options.
   * Without one: an unreadable form (400), a missing `file` field (400), a
   * `file` field that is not a file (its `seek` raises: 500) and empty
   * contents (400) are refused.
   */
  function ResolveUpload(file: Option<Upload>, form: Form): (r: Result<Upload, int>)
    ensures r.Failure? ==> r.error == 400 || r.error == 500
    ensures r.Success? ==> |r.value.contents| > 0
    ensures file.Some? ==> r == (if |file.value.contents| == 0 then Failure(400) else Success(file.value))
    ensures file.None? && form.Unparseable? ==> r == Failure(400)
    ensures file.None? && form.Fields? && Get(form.fields, "file").PyNone? ==> r == Failure(400)
    ensures file.None? && form.Fields? && Get(form.fields, "file").PyFile? ==>
              r == (if |Get(form.fields, "file").upload.contents| == 0 then Failure(400)
                    else Success(Get(form.fields, "file").upload))
    ensures file.None? && form.Fields? && (Get(form.fields, "file").PyStr? || Get(form.fields, "file").PyBool?) ==>
              r == Failure(500)
  {
    match file
    case Some(u) => if |u.contents| == 0 then Failure(400) else Success(u)
    case None =>
      match form
      case Unparseable => Failure(400)
      case Fields(f) =>
        match Get(f, "file")
        case PyNone => Failure(400)
        case PyFile(u) => if |u.contents| == 0 then Failure(400) else Success(u)
        case PyStr(_) => Failure(500)
        case PyBool(_) => Failure(500)
  }

  // ---------------------------------------------------------------- counting

  /** Largest estimate the heuristic fallback reports. */
  const FallbackCap: int := 1000

  /** `min(max(1, estimate), 1000)`. */
  function Clamp(estimate: int): (c: int)
    ensures 1 <= c <= FallbackCap
    ensures 1 <= estimate <= FallbackCap ==> c == estimate
    ensures estimate < 1 ==> c == 1
    ensures estimate > FallbackCap ==> c == FallbackCap
  {
    var atLeastOne := if estimate > 1 then estimate else 1;
    if atLeastOne < FallbackCap then atLeastOne else FallbackCap
  }

  /** Clamping an already clamped estimate changes nothing, and clamping keeps order. */
  lemma ClampStable(a: int, b: int)
    ensures Clamp(Clamp(a)) == Clamp(a)
    ensures a <= b ==> Clamp(a) <= Clamp(b)
  {
  }

  /**
   * What each counting backend produced: the rounded model count, the
   * rounded LWCC count, and the fallback's raw integer estimate (`None`
   * when that backend failed, or, for the fallback, when the image has no
   * pixels).
   */
  datatype Backends = Backends(model: Option<int>, lwcc: Option<int>, fallbackEstimate: Option<int>)

  /** The first backend that produced a count wins; the fallback's estimate is clamped. */
  function Count(b: Backends): (c: Option<int>)
    ensures c.None? <==> b.model.None? && b.lwcc.None? && b.fallbackEstimate.None?
    ensures b.model.Some? ==> c == b.model
    ensures b.model.None? && b.lwcc.Some? ==> c == b.lwcc
    ensures b.model.None? && b.lwcc.None? && c.Some? ==> 1 <= c.value <= FallbackCap
    ensures b.model.None? && b.lwcc.None? && b.fallbackEstimate.Some? ==> c == Some(Clamp(b.fallbackEstimate.value))
  {
    if b.model.Some? then b.model
    else if b.lwcc.Some? then b.lwcc
    else if b.fallbackEstimate.Some? then Some(Clamp(b.fallbackEstimate.value))
    else None
  }

  // ---------------------------------------------------------------- the response

  /**
   * The response body's shape: `person_count`, whether the density keys
   * (`area_m2`, `people_per_m2`) are present, and `saved` if present.
   */
  datatype Response = Response(personCount: int, hasDensity: bool, saved: Option<bool>)

  datatype Outcome = Reply(response: Response) | HttpError(status: int)

  /** Python truthiness of the parsed radius: present and non-zero. */
  predicate RadiusGiven(radius: Option<real>) {
    radius.Some? && radius.value != 0.0
  }

  /**
   * The whole handler.  `parseFloat` is Python's `float()` on a string,
   * `densityOk` whether the float arithmetic for the area and density
   * finished without raising (it overflows for a huge radius, and the error
   * is swallowed), and `saveOk` whether inserting the density record succeeded.
   */
  function InferCount(file: Option<Upload>, form: Form, backends: Backends,
                      parseFloat: string -> Option<real>, densityOk: bool, saveOk: bool): (r: Outcome)
    ensures r.HttpError? ==> r.status == 400 || r.status == 500
    ensures ResolveUpload(file, form).Failure? ==> r == HttpError(ResolveUpload(file, form).error)
    ensures ResolveUpload(file, form).Success? && Count(backends).None? ==> r == HttpError(500)
    ensures r.Reply? <==> ResolveUpload(file, form).Success? && Count(backends).Some?
    ensures r.Reply? ==> Some(r.response.personCount) == Count(backends)
    ensures r.Reply? ==> (r.response.hasDensity <==> RadiusGiven(RequestOptions(file, form, parseFloat).radius) && densityOk)
    ensures r.Reply? ==> (r.response.saved.Some? <==> RequestOptions(file, form, parseFloat).saveRecord)
    ensures r.Reply? && r.response.saved.Some? ==> r.response.saved.value == saveOk
  {
    match ResolveUpload(file, form)
    case Failure(code) => HttpError(code)
    case Success(_) =>
      match Count(backends)
      case None => HttpError(500)
      case Some(c) =>
        var o := RequestOptions(file, form, parseFloat);
        Reply(Response(c, RadiusGiven(o.radius) && densityOk, if o.saveRecord then Some(saveOk) else None))
  }

  /**
   * The two branches agree: sending the file as the `file` parameter, or
   * only as the `file` field of a readable form, gives the same outcome.
   */
  lemma BranchesAgree(u: Upload, fields: map<string, PyValue>, backends: Backends,
                      parseFloat: string -> Option<real>, densityOk: bool, saveOk: bool)
    ensures InferCount(Some(u), Fields(fields), backends, parseFloat, densityOk, saveOk)
            == InferCount(None, Fields(fields["file" := PyFile(u)]), backends, parseFloat, densityOk, saveOk)
  {
    OtherFieldsIgnored(fields, "file", PyFile(u), parseFloat);
  }

  /** An empty upload is refused with 400 whichever way it arrives, before any counting. */
  lemma EmptyUploadRejected(name: string, form: Form, backends: Backends,
                            parseFloat: string -> Option<real>, densityOk: bool, saveOk: bool)
    ensures InferCount(Some(Upload(name, [])), form, backends, parseFloat, densityOk, saveOk) == HttpError(400)
    ensures form.Fields? ==>
              InferCount(None, Fields(form.fields["file" := PyFile(Upload(name, []))]), backends, parseFloat, densityOk, saveOk)
              == HttpError(400)
  {
    if form.Fields? {
      assert Get(form.fields["file" := PyFile(Upload(name, []))], "file") == PyFile(Upload(name, []));
    }
  }
}

=== FILE: lost_persons.dfy ===
/**
 * The lost-persons page: a list of reports filtered by event (or all events),
 * newest first, with total / missing / found counters, and a "Mark as Found"
 * action that rewrites the status of one report.
 */
module LostPersonsPage {
  import opened Wrappers
  import opened Types
  import Store

  /** The selector value meaning "no event filter". */
  const AllEvents: string := "all"

  datatype LostStats = LostStats(total: nat, missing: nat, found: nat)

  function HasStatus(st: LostStatus): LostPerson -> bool {
    (p: LostPerson) => p.status == st
  }

  /** The status column of a list of reports. */
  function Statuses(rows: seq<LostPerson>): (r: seq<LostStatus>)
    ensures |r| == |rows|
  {
    seq(|rows|, i requires 0 <= i < |rows| => rows[i].status)
  }

  /** The counters shown above the list, computed from the returned rows. */
  function CountStats(rows: seq<LostPerson>): (st: LostStats)
    ensures st.total == |rows|
    ensures st.missing == multiset(Statuses(rows))[Missing]
    ensures st.found == multiset(Statuses(rows))[Found]
    ensures st.missing + st.found == st.total
    ensures st.missing > 0 <==> exists p :: p in rows && p.status == Missing
    ensures st.found > 0 <==> exists p :: p in rows && p.status == Found
  {
    var missing, found := Store.Where(rows, HasStatus(Missing)), Store.Where(rows, HasStatus(Found));
    StatusCount(rows, Missing);
    StatusCount(rows, Found);
    Store.WhereSplit(rows, HasStatus(Missing), HasStatus(Found));
    Store.WhereNonEmpty(rows, HasStatus(Missing));
    Store.WhereNonEmpty(rows, HasStatus(Found));
    LostStats(|rows|, |missing|, |found|)
  }

  /** The filtered length equals the multiplicity of the status in the status column. */
  lemma {:induction false} StatusCount(rows: seq<LostPerson>, st: LostStatus)
    ensures |Store.Where(rows, HasStatus(st))| == multiset(Statuses(rows))[st]
  {
    if rows != [] {
      StatusCount(rows[1..], st);
      assert Statuses(rows) == [rows[0].status] + Statuses(rows[1..]);
    }
  }

  // ---------------------------------------------------------------- loading

  datatype PageState = PageState(selectedEvent: string, lostPersons: seq<LostPerson>, stats: LostStats)

  /** The filter starts at "all" with an empty list and zero counters. */
  function Init(): PageState {
    PageState(AllEvents, [], LostStats(0, 0, 0))
  }

  /** The query predicate: none for "all", otherwise an `event_id` equality. */
  function EventFilter(ev: string): LostPerson -> bool {
    if ev == AllEvents then (p: LostPerson) => true else (p: LostPerson) => p.event_id == ev
  }

  lemma AllFilterKeepsAll(table: seq<LostPerson>)
    ensures Store.Where(table, EventFilter(AllEvents)) == table
  {
    Store.WhereAll(table, EventFilter(AllEvents));
  }

  function CreatedAt(p: LostPerson): int {
    p.created_at
  }

  /**
   * `loadLostPersons`: fetch newest first, filtered by the selected event
   * unless it is "all"; when the store returns no data nothing changes.
   */
  function LoadLostPersons(s: PageState, table: seq<LostPerson>, storeUp: bool): (r: PageState)
    ensures !storeUp ==> r == s
    ensures r.selectedEvent == s.selectedEvent
    ensures storeUp && s.selectedEvent == AllEvents ==> multiset(r.lostPersons) == multiset(table)
    ensures storeUp && s.selectedEvent != AllEvents ==>
              forall p :: p in r.lostPersons <==> p in table && p.event_id == s.selectedEvent
    ensures storeUp ==> multiset(r.lostPersons) == multiset(Store.Where(table, EventFilter(s.selectedEvent)))
    ensures storeUp ==> Store.NewestFirst(r.lostPersons, CreatedAt)
    ensures storeUp ==> r.stats.total == |r.lostPersons|
    ensures storeUp ==> r.stats.missing + r.stats.found == r.stats.total
    ensures storeUp ==> r.stats.missing == multiset(Statuses(r.lostPersons))[Missing]
    ensures storeUp ==> r.stats.found == multiset(Statuses(r.lostPersons))[Found]
  {
    if !storeUp then s
    else
      var rows := Store.Select(table, EventFilter(s.selectedEvent), CreatedAt);
      AllFilterKeepsAll(table);
      s.(lostPersons := rows, stats := CountStats(rows))
  }

  /** The page mounts with the "all" filter, so its first load has no event predicate. */
  function Mount(table: seq<LostPerson>, storeUp: bool): (r: PageState)
    ensures r.selectedEvent == AllEvents
    ensures !storeUp ==> r == Init()
    ensures storeUp ==> multiset(r.lostPersons) == multiset(table)
    ensures storeUp ==> r.stats.total == |table|
  {
    var r := LoadLostPersons(Init(), table, storeUp);
    assert storeUp ==> |r.lostPersons| == |multiset(r.lostPersons)| == |multiset(table)| == |table|;
    r
  }

  /** Choosing a value in the selector reloads only when the value changes. */
  function SelectEvent(s: PageState, ev: string, table: seq<LostPerson>, storeUp: bool): (r: PageState)
    ensures r.selectedEvent == ev
    ensures ev == s.selectedEvent ==> r == s
    ensures ev != s.selectedEvent && !storeUp ==> r.lostPersons == s.lostPersons && r.stats == s.stats
    ensures ev != s.selectedEvent && storeUp ==>
              multiset(r.lostPersons) == multiset(Store.Where(table, EventFilter(ev)))
    ensures ev != s.selectedEvent && storeUp && ev == AllEvents ==> multiset(r.lostPersons) == multiset(table)
    ensures ev != s.selectedEvent && storeUp && ev != AllEvents ==>
              forall p :: p in r.lostPersons <==> p in table && p.event_id == ev
    ensures ev != s.selectedEvent && storeUp ==>
              Store.NewestFirst(r.lostPersons, CreatedAt)
              && r.stats.total == |r.lostPersons|
              && r.stats.missing == multiset(Statuses(r.lostPersons))[Missing]
              && r.stats.found == multiset(Statuses(r.lostPersons))[Found]
  {
    if ev == s.selectedEvent then s else LoadLostPersons(s.(selectedEvent := ev), table, storeUp)
  }

  // ---------------------------------------------------------------- status updates

  function WithId(id: string): LostPerson -> bool {
    (p: LostPerson) => p.id == id
  }

  function SetTo(st: LostStatus): LostPerson -> LostPerson {
    (p: LostPerson) => p.(status := st)
  }

  /** `update({ status }).eq('id', id)`: only the status field of the rows with that id changes. */
  function SetStatus(table: seq<LostPerson>, id: string, st: LostStatus): (r: seq<LostPerson>)
    ensures |r| == |table|
    ensures forall i :: 0 <= i < |table| ==> r[i].(status := table[i].status) == table[i]
    ensures forall i :: 0 <= i < |table| && table[i].id == id ==> r[i].status == st
    ensures forall i :: 0 <= i < |table| && table[i].id != id ==> r[i] == table[i]
  {
    Store.UpdateWhere(table, WithId(id), SetTo(st))
  }

  /** The page and the table after one action. */
  datatype Step = Step(page: PageState, table: seq<LostPerson>)

  /**
   * `updateStatus`: the write's outcome is not inspected, so the list is
   * reloaded whether or not the store accepted it.
   */
  function UpdateStatus(s: PageState, table: seq<LostPerson>, id: string, st: LostStatus,
                        writeOk: bool, storeUp: bool): (r: Step)
    ensures !writeOk ==> r.table == table
    ensures writeOk ==> r.table == SetStatus(table, id, st)
    ensures r.page == LoadLostPersons(s, r.table, storeUp)
  {
    var t := if writeOk then SetStatus(table, id, st) else table;
    Step(LoadLostPersons(s, t, storeUp), t)
  }

  /** The status a report's card offers to set: "Mark as Found", on missing reports only. */
  function OfferedStatus(p: LostPerson): (o: Option<LostStatus>)
    ensures o.Some? <==> p.status == Missing
    ensures o.Some? ==> o.value == Found
  {
    if p.status == Missing then Some(Found) else None
  }

  /** Pressing the card's button, if it has one. */
  function PressCardButton(s: PageState, table: seq<LostPerson>, p: LostPerson,
                           writeOk: bool, storeUp: bool): (r: Option<Step>)
    ensures r.Some? <==> p.status == Missing
    ensures r.Some? ==> r.value == UpdateStatus(s, table, p.id, Found, writeOk, storeUp)
  {
    match OfferedStatus(p)
    case None => None
    case Some(st) => Some(UpdateStatus(s, table, p.id, st, writeOk, storeUp))
  }

  /**
   * The only transition the page offers is missing to found: after pressing
   * any card's button, every report that was found is still found, and the
   * pressed report is found.
   */
  lemma FoundIsFinal(s: PageState, table: seq<LostPerson>, p: LostPerson, writeOk: bool, storeUp: bool)
    requires PressCardButton(s, table, p, writeOk, storeUp).Some?
    ensures var t := PressCardButton(s, table, p, writeOk, storeUp).value.table;
            |t| == |table|
            && (forall i :: 0 <= i < |table| && table[i].status == Found ==> t[i].status == Found)
            && (writeOk ==> forall i :: 0 <= i < |table| && table[i].id == p.id ==> t[i].status == Found)
  {
  }

  /** Counters after a successful update of a loaded page still account for every row. */
  lemma UpdateKeepsCountersConsistent(s: PageState, table: seq<LostPerson>, id: string, st: LostStatus,
                                      writeOk: bool)
    ensures var r := UpdateStatus(s, table, id, st, writeOk, true).page;
            r.stats.missing + r.stats.found == r.stats.total == |r.lostPersons|
  {
  }
}

=== FILE: medical.dfy ===
/**
 * The medical-facilities page: the selected event's facilities newest first
 * and an "add facility" form whose insert is tagged with the selected event.
 */
module MedicalPage {
  import opened Wrappers
  import opened Types
  import Store

  datatype FacilityForm = FacilityForm(
    facility_name: string, facility_type: FacilityType, contact_number: string, address: string)

  /** The form as it opens and as a successful insert leaves it. */
  const EmptyForm: FacilityForm := FacilityForm("", Hospital, "", "")

  datatype PageState = PageState(
    selectedEvent: string, facilities: seq<MedicalFacility>, showAddModal: bool, form: FacilityForm)

  function OfEvent(ev: string): MedicalFacility -> bool {
    (m: MedicalFacility) => m.event_id == ev
  }

  function CreatedAt(m: MedicalFacility): int {
    m.created_at
  }

  /** `loadFacilities`: the selected event's facilities newest first; no data leaves the list alone. */
  function LoadFacilities(s: PageState, table: seq<MedicalFacility>, storeUp: bool): (r: PageState)
    ensures !storeUp ==> r == s
    ensures r.(facilities := s.facilities) == s
    ensures storeUp ==> forall m :: m in r.facilities <==> m in table && m.event_id == s.selectedEvent
    ensures storeUp ==> multiset(r.facilities) == multiset(Store.Where(table, OfEvent(s.selectedEvent)))
    ensures storeUp ==> Store.NewestFirst(r.facilities, CreatedAt)
  {
    if storeUp then s.(facilities := Store.Select(table, OfEvent(s.selectedEvent), CreatedAt)) else s
  }

  /** Choosing an event: the effect fetches only for a changed, non-empty selection. */
  function SelectEvent(s: PageState, ev: string, table: seq<MedicalFacility>, storeUp: bool): (r: PageState)
    ensures r.selectedEvent == ev
    ensures r.form == s.form && r.showAddModal == s.showAddModal
    ensures ev == "" || ev == s.selectedEvent ==> r.facilities == s.facilities
    ensures !storeUp ==> r.facilities == s.facilities
    ensures ev != "" && ev != s.selectedEvent && storeUp ==>
              (forall m :: m in r.facilities <==> m in table && m.event_id == ev)
              && multiset(r.facilities) == multiset(Store.Where(table, OfEvent(ev)))
              && Store.NewestFirst(r.facilities, CreatedAt)
  {
    if ev == s.selectedEvent then s
    else if ev != "" then LoadFacilities(s.(selectedEvent := ev), table, storeUp)
    else s.(selectedEvent := ev)
  }

  /** The page and the table after one action. */
  datatype Step = Step(page: PageState, table: seq<MedicalFacility>)

  /**
   * The row an accepted insert stores: the selected event and all four form
   * fields as typed (an empty address is stored as the empty string, not as
   * null), with the id and time the store assigned.
   */
  function NewFacility(ev: string, form: FacilityForm, id: string, at: Timestamp): (m: MedicalFacility)
    ensures m.event_id == ev && m.id == id && m.created_at == at
    ensures m.address.Some?
    ensures FacilityForm(m.facility_name, m.facility_type, m.contact_number, m.address.value) == form
  {
    MedicalFacility(id, ev, form.facility_name, form.facility_type, form.contact_number, Some(form.address), at)
  }

  /**
   * `handleSubmit`: insert the form as a new facility of the selected event;
   * on success close the dialog, reset the form and reload; on error change nothing.
   */
  function HandleSubmit(s: PageState, table: seq<MedicalFacility>, outcome: Store.WriteOutcome,
                        storeUp: bool): (r: Step)
    ensures outcome.Rejected? ==> r == Step(s, table)
    ensures outcome.Stored? ==>
              |r.table| == |table| + 1 && r.table[..|table|] == table
              && r.table[|table|] == NewFacility(s.selectedEvent, s.form, outcome.id, outcome.at)
    ensures outcome.Stored? ==> r.page.form == EmptyForm && !r.page.showAddModal
    ensures outcome.Stored? ==> r.page.selectedEvent == s.selectedEvent
    ensures outcome.Stored? && storeUp ==>
              NewFacility(s.selectedEvent, s.form, outcome.id, outcome.at) in r.page.facilities
    ensures outcome.Stored? && storeUp ==>
              multiset(r.page.facilities) == multiset(Store.Where(r.table, OfEvent(s.selectedEvent)))
              && Store.NewestFirst(r.page.facilities, CreatedAt)
    ensures outcome.Stored? && !storeUp ==> r.page.facilities == s.facilities
  {
    match outcome
    case Rejected => Step(s, table)
    case Stored(id, at) =>
      var t := table + [NewFacility(s.selectedEvent, s.form, id, at)];
      assert t[|table|] in t;
      Step(LoadFacilities(s.(showAddModal := false, form := EmptyForm), t, storeUp), t)
  }

  const HospitalColor: string := "text-red-400"
  const ClinicColor: string := "text-blue-400"
  const FirstAidColor: string := "text-green-400"
  const DefaultColor: string := "text-gray-400"

  /** `getFacilityColor`: one text colour per facility type, gray for any other string. */
  function GetFacilityColor(facilityType: string): (c: string)
    ensures c == DefaultColor <==> ParseFacilityType(facilityType).None?
    ensures c in {HospitalColor, ClinicColor, FirstAidColor, DefaultColor}
    ensures ParseFacilityType(facilityType) == Some(Hospital) ==> c == HospitalColor
    ensures ParseFacilityType(facilityType) == Some(Clinic) ==> c == ClinicColor
    ensures ParseFacilityType(facilityType) == Some(FirstAid) ==> c == FirstAidColor
  {
    assert HospitalColor[5] == 'r' && ClinicColor[5] == 'b' && FirstAidColor[5] == 'g' && DefaultColor[6] == 'r';
    match ParseFacilityType(facilityType)
    case Some(Hospital) => HospitalColor
    case Some(Clinic) => ClinicColor
    case Some(FirstAid) => FirstAidColor
    case None => DefaultColor
  }

  /** Different facility types get different colours. */
  lemma FacilityColorsDistinct(a: FacilityType, b: FacilityType)
    ensures GetFacilityColor(FacilityTypeName(a)) == GetFacilityColor(FacilityTypeName(b)) <==> a == b
  {
    assert HospitalColor[5] == 'r' && ClinicColor[5] == 'b' && FirstAidColor[5] == 'g';
    assert ParseFacilityType(FacilityTypeName(a)) == Some(a);
    assert ParseFacilityType(FacilityTypeName(b)) == Some(b);
  }
}

=== FILE: store.dfy ===
/**
 * The external row store as the pages use it: a table is a sequence of rows,
 * `select().eq(col, v)` keeps the rows satisfying an equality predicate,
 * `.order('created_at', { ascending: false })` puts them newest first,
 * `insert([row])` appends, and `update(fields).eq('id', id)` rewrites exactly
 * the rows the predicate selects.  The column a query reads is passed in as
 * a function from row to value.
 */
module Store {

  /** Rows of `rows` that satisfy `p`, in table order. */
  function Where<R(!new)>(rows: seq<R>, p: R -> bool): (r: seq<R>)
    ensures forall x :: x in r <==> x in rows && p(x)
    ensures |r| <= |rows|
  {
    if rows == [] then []
    else (if p(rows[0]) then [rows[0]] else []) + Where(rows[1..], p)
  }

  /** `Where` keeps every copy of a satisfying row and no copy of any other. */
  lemma {:induction false} WhereMultiset<R(!new)>(rows: seq<R>, p: R -> bool, x: R)
    ensures multiset(Where(rows, p))[x] == if p(x) then multiset(rows)[x] else 0
  {
    if rows != [] {
      WhereMultiset(rows[1..], p, x);
      assert rows == [rows[0]] + rows[1..];
    }
  }

  /** Filtering two permutations of one table yields permutations of one result. */
  lemma WherePermutation<R(!new)>(a: seq<R>, b: seq<R>, p: R -> bool)
    requires multiset(a) == multiset(b)
    ensures multiset(Where(a, p)) == multiset(Where(b, p))
  {
    forall x
      ensures multiset(Where(a, p))[x] == multiset(Where(b, p))[x]
    {
      WhereMultiset(a, p, x);
      WhereMultiset(b, p, x);
    }
  }

  /** A nonempty filter result is exactly a witness among the rows. */
  lemma WhereNonEmpty<R(!new)>(rows: seq<R>, p: R -> bool)
    ensures |Where(rows, p)| > 0 <==> exists x :: x in rows && p(x)
  {
    var w := Where(rows, p);
    if |w| > 0 {
      assert w[0] in w;
    }
  }

  /** A predicate every row satisfies filters nothing out. */
  lemma {:induction false} WhereAll<R(!new)>(rows: seq<R>, p: R -> bool)
    requires forall x :: x in rows ==> p(x)
    ensures Where(rows, p) == rows
  {
    if rows != [] {
      assert rows[0] in rows;
      assert forall x :: x in rows[1..] ==> x in rows;
      WhereAll(rows[1..], p);
      assert rows == [rows[0]] + rows[1..];
    }
  }

  /** Two predicates that split every row between them split the row count too. */
  lemma {:induction false} WhereSplit<R(!new)>(rows: seq<R>, p: R -> bool, q: R -> bool)
    requires forall x :: x in rows ==> p(x) != q(x)
    ensures |Where(rows, p)| + |Where(rows, q)| == |rows|
  {
    if rows != [] {
      assert rows[0] in rows;
      assert forall x :: x in rows[1..] ==> x in rows;
      WhereSplit(rows[1..], p, q);
    }
  }

  /** Newest first: `key` never increases along the sequence. */
  predicate NewestFirst<R>(s: seq<R>, key: R -> int) {
    forall i, j :: 0 <= i < j < |s| ==> key(s[i]) >= key(s[j])
  }

  /** Places `x` in front of the first row that is not newer than it. */
  function InsertNewestFirst<R>(x: R, s: seq<R>, key: R -> int): (r: seq<R>)
    requires NewestFirst(s, key)
    ensures NewestFirst(r, key)
    ensures multiset(r) == multiset(s) + multiset{x}
    ensures forall y :: y in r ==> y in s || y == x
  {
    if s == [] then [x]
    else if key(x) >= key(s[0]) then [x] + s
    else
      var rest := InsertNewestFirst(x, s[1..], key);
      assert s == [s[0]] + s[1..];
      assert forall j :: 0 <= j < |rest| ==> key(s[0]) >= key(rest[j]) by {
        forall j | 0 <= j < |rest|
          ensures key(s[0]) >= key(rest[j])
        {
          assert rest[j] in rest;
        }
      }
      [s[0]] + rest
  }

  /** The rows of `s`, reordered newest first. */
  function SortNewestFirst<R>(s: seq<R>, key: R -> int): (r: seq<R>)
    ensures NewestFirst(r, key)
    ensures multiset(r) == multiset(s)
  {
    if s == [] then []
    else
      assert s == [s[0]] + s[1..];
      InsertNewestFirst(s[0], SortNewestFirst(s[1..], key), key)
  }

  /** `select('*').eq(...).order(key, { ascending: false })`. */
  function Select<R(!new)>(table: seq<R>, p: R -> bool, key: R -> int): (r: seq<R>)
    ensures NewestFirst(r, key)
    ensures multiset(r) == multiset(Where(table, p))
    ensures forall x :: x in r <==> x in table && p(x)
  {
    var r := SortNewestFirst(Where(table, p), key);
    assert forall x :: x in r <==> x in multiset(r);
    r
  }

  /**
   * What the store answers to `insert([row])`: the id and creation time it
   * assigned to the stored row, or an error.
   */
  datatype WriteOutcome = Stored(id: string, at: int) | Rejected

  /** `update(change).eq(...)`: rows that `hit` selects are changed, all others are kept as they are. */
  function UpdateWhere<R>(table: seq<R>, hit: R -> bool, change: R -> R): (r: seq<R>)
    ensures |r| == |table|
    ensures forall i :: 0 <= i < |table| && hit(table[i]) ==> r[i] == change(table[i])
    ensures forall i :: 0 <= i < |table| && !hit(table[i]) ==> r[i] == table[i]
  {
    if table == [] then []
    else [if hit(table[0]) then change(table[0]) else table[0]] + UpdateWhere(table[1..], hit, change)
  }
}

=== FILE: types.dfy ===
/**
 * Record shapes and string enumerations of the CMS front end.
 * Each TypeScript string-literal union becomes a datatype together with the
 * string the store holds for it (`...Name`) and the inverse lookup (`Parse...`).
 * Timestamps (`created_at`, `last_updated`, ...) are ISO-8601 strings in the
 * source; here they are the instants they denote, so ordering by them is
 * integer ordering.
 */
module Types {
  import opened Wrappers

  type Timestamp = int

  // ---------------------------------------------------------------- enumerations

  /** `Feedback.category`. */
  datatype Category = General | Safety | Navigation | Facilities | Emergency

  /** The categories in the order the feedback page lists them. */
  const CategoryOrder: seq<Category> := [General, Safety, Navigation, Facilities, Emergency]

  function CategoryName(c: Category): string {
    match c
    case General => "general"
    case Safety => "safety"
    case Navigation => "navigation"
    case Facilities => "facilities"
    case Emergency => "emergency"
  }

  function ParseCategory(s: string): (r: Option<Category>)
    ensures r.Some? ==> CategoryName(r.value) == s
    ensures r.None? <==> forall c :: CategoryName(c) != s
  {
    if s == "general" then Some(General)
    else if s == "safety" then Some(Safety)
    else if s == "navigation" then Some(Navigation)
    else if s == "facilities" then Some(Facilities)
    else if s == "emergency" then Some(Emergency)
    else None
  }

  /** `EmergencyExit.status`. */
  datatype ExitStatus = Crowded | Moderate | Clear

  function ExitStatusName(st: ExitStatus): string {
    match st
    case Crowded => "crowded"
    case Moderate => "moderate"
    case Clear => "clear"
  }

  function ParseExitStatus(s: string): (r: Option<ExitStatus>)
    ensures r.Some? ==> ExitStatusName(r.value) == s
    ensures r.None? <==> forall st :: ExitStatusName(st) != s
  {
    if s == "crowded" then Some(Crowded)
    else if s == "moderate" then Some(Moderate)
    else if s == "clear" then Some(Clear)
    else None
  }

  /** `LostPerson.status`: exactly two values. */
  datatype LostStatus = Missing | Found

  function LostStatusName(st: LostStatus): string {
    match st
    case Missing => "missing"
    case Found => "found"
  }

  function ParseLostStatus(s: string): (r: Option<LostStatus>)
    ensures r.Some? ==> LostStatusName(r.value) == s
    ensures r.None? <==> forall st :: LostStatusName(st) != s
  {
    if s == "missing" then Some(Missing)
    else if s == "found" then Some(Found)
    else None
  }

  /** `MedicalFacility.facility_type`. */
  datatype FacilityType = Hospital | Clinic | FirstAid

  function FacilityTypeName(t: FacilityType): string {
    match t
    case Hospital => "hospital"
    case Clinic => "clinic"
    case FirstAid => "first-aid"
  }

  function ParseFacilityType(s: string): (r: Option<FacilityType>)
    ensures r.Some? ==> FacilityTypeName(r.value) == s
    ensures r.None? <==> forall t :: FacilityTypeName(t) != s
  {
    if s == "hospital" then Some(Hospital)
    else if s == "clinic" then Some(Clinic)
    else if s == "first-aid" then Some(FirstAid)
    else None
  }

  /** `WashroomFacility.availability_status`. */
  datatype Availability = Available | Occupied | Maintenance

  function AvailabilityName(a: Availability): string {
    match a
    case Available => "available"
    case Occupied => "occupied"
    case Maintenance => "maintenance"
  }

  function ParseAvailability(s: string): (r: Option<Availability>)
    ensures r.Some? ==> AvailabilityName(r.value) == s
    ensures r.None? <==> forall a :: AvailabilityName(a) != s
  {
    if s == "available" then Some(Available)
    else if s == "occupied" then Some(Occupied)
    else if s == "maintenance" then Some(Maintenance)
    else None
  }

  /** `Zone.density_status`. */
  datatype DensityStatus = DensityCrowded | DensityModerate | DensityLow

  function DensityStatusName(d: DensityStatus): string {
    match d
    case DensityCrowded => "crowded"
    case DensityModerate => "moderate"
    case DensityLow => "low"
  }

  function ParseDensityStatus(s: string): (r: Option<DensityStatus>)
    ensures r.Some? ==> DensityStatusName(r.value) == s
    ensures r.None? <==> forall d :: DensityStatusName(d) != s
  {
    if s == "crowded" then Some(DensityCrowded)
    else if s == "moderate" then Some(DensityModerate)
    else if s == "low" then Some(DensityLow)
    else None
  }

  /** `WashroomFacility.gender`. */
  datatype WashroomGender = Male | Female | Unisex

  function WashroomGenderName(g: WashroomGender): string {
    match g
    case Male => "male"
    case Female => "female"
    case Unisex => "unisex"
  }

  function ParseWashroomGender(s: string): (r: Option<WashroomGender>)
    ensures r.Some? ==> WashroomGenderName(r.value) == s
    ensures r.None? <==> forall g :: WashroomGenderName(g) != s
  {
    if s == "male" then Some(Male)
    else if s == "female" then Some(Female)
    else if s == "unisex" then Some(Unisex)
    else None
  }

  // ---------------------------------------------------------------- records

  datatype Organizer = Organizer(id: string, organizer_id: string, name: string, email: string)

  datatype Event = Event(
    id: string, organizer_id: string, name: string, location: string, date: string,
    attendees_count: int, status: string, created_at: Timestamp)

  datatype Zone = Zone(
    id: string, event_id: string, name: string, capacity: int, current_density: int,
    density_status: DensityStatus, image_url: Option<string>, last_updated: Timestamp,
    created_at: Timestamp)

  datatype LostPerson = LostPerson(
    id: string, event_id: string, name: string, age: int, gender: string,
    photo_url: Option<string>, last_seen_location: string, last_seen_time: string,
    description: string, reporter_name: string, reporter_phone: string,
    status: LostStatus, created_at: Timestamp)

  datatype MedicalFacility = MedicalFacility(
    id: string, event_id: string, facility_name: string, facility_type: FacilityType,
    contact_number: string, address: Option<string>, created_at: Timestamp)

  datatype EmergencyExit = EmergencyExit(
    id: string, event_id: string, exit_name: string, location: string,
    status: ExitStatus, last_updated: Timestamp, created_at: Timestamp)

  datatype Feedback = Feedback(
    id: string, event_id: string, rating: int, category: Category, comment: string,
    created_at: Timestamp)

  datatype WashroomFacility = WashroomFacility(
    id: string, event_id: string, name: string, gender: WashroomGender,
    floor_level: Option<string>, capacity: int, availability_status: Availability,
    location_details: Option<string>, created_at: Timestamp, updated_at: Timestamp)

  /** A row of any of the record kinds. */
  datatype Record =
    | OrganizerRecord(organizer: Organizer)
    | EventRecord(event: Event)
    | ZoneRecord(zone: Zone)
    | LostPersonRecord(person: LostPerson)
    | MedicalRecord(facility: MedicalFacility)
    | ExitRecord(exit: EmergencyExit)
    | FeedbackRecord(feedback: Feedback)
    | WashroomRecord(washroom: WashroomFacility)

  /** The event a record is scoped to; only organizers and events themselves are unscoped. */
  function EventScope(r: Record): (e: Option<string>)
    ensures e.None? <==> r.OrganizerRecord? || r.EventRecord?
    ensures r.ZoneRecord? ==> e == Some(r.zone.event_id)
    ensures r.LostPersonRecord? ==> e == Some(r.person.event_id)
    ensures r.MedicalRecord? ==> e == Some(r.facility.event_id)
    ensures r.ExitRecord? ==> e == Some(r.exit.event_id)
    ensures r.FeedbackRecord? ==> e == Some(r.feedback.event_id)
    ensures r.WashroomRecord? ==> e == Some(r.washroom.event_id)
  {
    match r
    case OrganizerRecord(_) => None
    case EventRecord(_) => None
    case ZoneRecord(z) => Some(z.event_id)
    case LostPersonRecord(p) => Some(p.event_id)
    case MedicalRecord(m) => Some(m.event_id)
    case ExitRecord(x) => Some(x.event_id)
    case FeedbackRecord(f) => Some(f.event_id)
    case WashroomRecord(w) => Some(w.event_id)
  }
}

=== FILE: wrappers.dfy ===
/** Option and Result, and the JavaScript truthiness helpers, shared by the whole model. */
module Wrappers {

  /** A value that may be absent: TypeScript's `T | null | undefined`, Python's `Optional[T]`. */
  datatype Option<+T> = None | Some(value: T) {

    /** The wrapped value, or `default` when absent. */
    function GetOr(default: T): T {
      match this
      case Some(v) => v
      case None => default
    }
  }

  /** The outcome of an operation that either succeeds with a value or fails with an error. */
  datatype Result<+R, +E> = Success(value: R) | Failure(error: E)

  /** JavaScript truthiness of a string: only the empty string is falsy. */
  predicate Truthy(s: string) {
    s != ""
  }

  /** `s || undefined`: a falsy (empty) string becomes absent, any other string passes through. */
  function OrUndefined(s: string): (r: Option<string>)
    ensures r.None? <==> s == ""
    ensures r.Some? ==> r.value == s
  {
    if Truthy(s) then Some(s) else None
  }
}
